=== FILE: README.md ===
# html5ever character-reference table generator, in Dafny

`codegen/gen-char-ref-data.py` is the build-time script that generates the
Rust tables html5ever's tokenizer uses to resolve character references.
This project models its three computations and proves what each promises:

- **The C1 replacement table** (`print_c1_replacements`). HTML replaces
  most characters of the C1 control range U+0080..U+009F with the
  Windows-1252 characters listed in a text table embedded in the script;
  its first column names each by its byte value 0x80..0x9F. The builder turns that text into 32
  optional codepoints, one slot `b - 0x80` for each byte `b`.
  - `C1Replacements` models the line loop as a pure function: it parses each
    line into a skip or a store, then applies the actions in order.
  - `C1Embedded` holds the embedded text and the 32 slots it builds, and
    proves the build on that text.
- **The named-entity table** (`print_entities`).
  - `EntityTable` checks every registry entry `&name -> codepoints` and
    stores it under `name` as a pair of `char` slots, on top of a seeded
    empty name.
  - It then adds every proper non-empty prefix of every name, with both
    slots unused.
  - `LexOrder` models the order `sorted` emits the names in.
  - `EntityExample` works the two-entry registry `&amp;`, `&amp` through
    the whole build.
- **`rust_char_literal`** (`CharLiteral`, over the hexadecimal helpers in
  `Hex`). It turns a codepoint into the Rust literal `'\U` followed by
  `%08x` and `'`.

Python's dict iteration order is modelled as a free choice (`:|`) inside the
two entity loops. Their postconditions pin the result to an order-free
definition (`Stored`, `Closure`), so any order gives the same table.

The registry map reaches the model already parsed. The table text reaches
it already split into whitespace fields, one `SpecLine` per line of the
string.

## Model

| member | source | states |
|---|---|---|
| Hex.Parse | codegen/gen-char-ref-data.py:63 | `int(s, 16)` on a digit string: succeeds exactly on a non-empty string of hexadecimal digits, and the value fits in that many digits; `ParseOneDigit` and `ParseAppendDigit` fix the value of every digit string of either case |
| Hex.ParseOneDigit | codegen/gen-char-ref-data.py:63 | a single hexadecimal digit of either case parses to its own value |
| Hex.ParseAppendDigit | codegen/gen-char-ref-data.py:63 | one more digit of either case multiplies the value by sixteen and adds the digit's value, so with `ParseOneDigit` the value of every digit string is fixed |
| Hex.ParseIgnoresCase | codegen/gen-char-ref-data.py:63 | a digit string with upper-case digits parses to the same value as its lower-case spelling |
| Hex.ToLowerHex | codegen/gen-char-ref-data.py:47 | the `%x` digits of a natural number: non-empty, lower-case, no leading zero, and they read back as the number |
| Hex.PadLeft | codegen/gen-char-ref-data.py:47 | zero padding to a width: the result has the width (or the input's length), ends with the input and is `0` before it |
| Hex.PaddedRoundTrip | codegen/gen-char-ref-data.py:47 | zero-padded lower-case hex of any natural number parses back to that number |
| CharLiteral.Format08x | codegen/gen-char-ref-data.py:47 | `%08x` of any integer: at least 8 characters, exactly 8 lower-case digits for 0..0xFFFFFFFF, and a leading `-` exactly for a negative value |
| CharLiteral.RustCharLiteral | codegen/gen-char-ref-data.py:46-47 | the literal starts with `'\U`, ends with `'`, is 12 characters for a 32-bit value and has lower-case hex digits for a non-negative one |
| CharLiteral.DecodeCharLiteral | codegen/gen-char-ref-data.py:46-47 | the inverse reading: a value comes back only from text framed by `'\U` and `'` |
| CharLiteral.CharLiteralRoundTrip | codegen/gen-char-ref-data.py:46-47 | decoding the literal of any integer codepoint gives that codepoint back |
| CharLiteral.CharLiteralInjective | codegen/gen-char-ref-data.py:46-47 | distinct codepoints give distinct literals |
| CharLiteral.FourDigitLiteral | codegen/gen-char-ref-data.py:47 | a codepoint with four hex digits is written `'\U0000` followed by those digits in lower case and `'` |
| CharLiteral.EuroSignLiteral | codegen/gen-char-ref-data.py:47 | U+20AC, the entry for byte 0x80, is written `'\U000020ac'` |
| C1Replacements.PythonListSlot | codegen/gen-char-ref-data.py:68 | as written, `tbl[ix - 0x80]` accepts every byte in 0x60..0x9F, and the slot is `(b - 0x80)` modulo 32, so bytes below 0x80 wrap onto the end of the table |
| C1Replacements.PythonListSlotAliases | codegen/gen-char-ref-data.py:68 | as written, byte 0x7F lands in byte 0x9F's slot and byte 0x60 in byte 0x80's |
| C1Replacements.C1Slot | codegen/gen-char-ref-data.py:68 | a slot exists exactly for bytes 0x80..0x9F, and slot `s` stands for byte `0x80 + s` |
| C1Replacements.C1SlotInjective | codegen/gen-char-ref-data.py:68 | two bytes never share a slot |
| C1Replacements.ParseLine | codegen/gen-char-ref-data.py:57-68 | an error names its own line, and a line missing either prefix fails. A store names a slot below 32 whose byte and codepoint are the line's hex. A skip is an empty line or the NUL line, and an empty line and the NUL line always skip |
| C1Replacements.ParseLineMeaning | codegen/gen-char-ref-data.py:57-68 | what any line of fields does, with digits of either case: a missing field or prefix fails; bad byte hex fails; the NUL byte skips; otherwise bad codepoint hex fails, a byte in 0x80..0x9F stores its codepoint in slot `b - 0x80`, and any other byte is out of range |
| C1Replacements.ParseLineFailure | codegen/gen-char-ref-data.py:57-68 | a line fails exactly when a field or prefix is missing, the byte's hex is bad, or a non-NUL byte has bad codepoint hex or lies outside 0x80..0x9F |
| C1Replacements.ParseFormattedLine | codegen/gen-char-ref-data.py:59-68 | a line written for a C1 byte in lower-case, zero-padded spelling reads back as a store of its codepoint in that byte's slot |
| C1Replacements.ParseFormattedNulLine | codegen/gen-char-ref-data.py:63-66 | the NUL line writes no slot, whatever codepoint it names |
| C1Replacements.ParseLines | codegen/gen-char-ref-data.py:56-68 | on success, one action per line, each the parse of that line |
| C1Replacements.ApplyAction | codegen/gen-char-ref-data.py:68 | a store sets its own slot and leaves every other slot unchanged; a skip changes nothing |
| C1Replacements.ApplyActions | codegen/gen-char-ref-data.py:55 | the table always has exactly 32 slots |
| C1Replacements.ApplyPrefixStep | codegen/gen-char-ref-data.py:56-68 | one more line changes the table built so far only in that line's slot |
| C1Replacements.BuildC1 | codegen/gen-char-ref-data.py:54-68 | a successful build has exactly 32 slots |
| C1Replacements.SlotFilledByUnique | codegen/gen-char-ref-data.py:55-68 | the reference meaning of a slot (empty, or the last line's codepoint) is a single value |
| C1Replacements.BuildC1Meaning | codegen/gen-char-ref-data.py:54-68 | the build succeeds exactly when every line parses. A failure carries the error of the first bad line. On success, every slot is empty when no line writes it and otherwise holds the codepoint of the last line that does |
| C1Embedded.EmbeddedLinesParse | codegen/gen-char-ref-data.py:15-44 | every line of the embedded text parses, to the listed actions |
| C1Embedded.EmbeddedActionsApply | codegen/gen-char-ref-data.py:15-68 | those actions, applied in order, give exactly the 32 listed slots |
| C1Embedded.EmbeddedTableBuilds | codegen/gen-char-ref-data.py:15-68 | the build on the embedded text succeeds with exactly those slots |
| C1Embedded.EmbeddedTableSlots | codegen/gen-char-ref-data.py:15-68 | slot 0 is U+20AC. A slot is empty exactly for bytes 0x81, 0x8D, 0x8F, 0x90 and 0x9D. No slot holds the NUL line's U+FFFD |
| LexOrder.LessMeaning | codegen/gen-char-ref-data.py:107 | the recursive string order is the lexicographic order: a proper prefix, or a smaller character at the first difference |
| LexOrder.LessIrreflexive | codegen/gen-char-ref-data.py:107 | no name sorts before itself |
| LexOrder.LessTransitive | codegen/gen-char-ref-data.py:107 | the order is transitive |
| LexOrder.LessTotal | codegen/gen-char-ref-data.py:107 | any two distinct names are ordered one way |
| LexOrder.LeastExists | codegen/gen-char-ref-data.py:107 | every non-empty finite set of names has a least member |
| LexOrder.SortKeys | codegen/gen-char-ref-data.py:107 | `sorted` lists every key exactly once, in strictly ascending order |
| LexOrder.SortedUnique | codegen/gen-char-ref-data.py:107 | two strictly ascending listings of the same keys are equal, so the emitted order depends only on the key set |
| EntityTable.PadRoundTrip | codegen/gen-char-ref-data.py:94-95 | padding one or two non-zero codepoints to two slots loses nothing, and the first slot is non-zero |
| EntityTable.ValidateEntry | codegen/gen-char-ref-data.py:89-98 | an entry is accepted exactly when its codepoints are non-zero, one or two, and its key starts with `&`. An accepted entry is stored under the key minus `&`, with its codepoints recoverable and a non-zero first slot. Each of the four errors (a zero codepoint, a wrong count, an empty key, a key without `&`) is reported exactly when the earlier checks pass and its own fails, in the generator's check order |
| EntityTable.StripInjective | codegen/gen-char-ref-data.py:97-98 | removing the leading `&` never merges two keys |
| EntityTable.StoredFromAt | codegen/gen-char-ref-data.py:86-98 | a name is stored exactly when it is the seeded empty name or `&name` is a registry key. It then holds that entry's slots, and the seed stays `[0,0]` unless the bare key `&` is present |
| EntityTable.StoredFromAdd | codegen/gen-char-ref-data.py:98 | storing one more entry changes only its own name |
| EntityTable.ValidateRegistry | codegen/gen-char-ref-data.py:86-98 | the pass succeeds exactly on a registry whose every entry is valid. A failure carries some entry's error. In any iteration order, success yields the one order-free stored map |
| EntityTable.SetDefaultPrefixes | codegen/gen-char-ref-data.py:102-103 | the inner `setdefault` loop adds the proper non-empty prefixes of one name and leaves every present value alone |
| EntityTable.ClosePrefixes | codegen/gen-char-ref-data.py:100-103 | the closure never changes an existing value, and every added name is `[0,0]` and a proper prefix of a snapshot key. The result is prefix-closed and equals the reference closure |
| EntityTable.ClosurePrefixClosed | codegen/gen-char-ref-data.py:100-103 | closing over the snapshot of keys alone already gives a prefix-closed set of names |
| EntityTable.ClosureLeast | codegen/gen-char-ref-data.py:100-103 | the closure adds no name beyond what any prefix-closed superset must contain |
| EntityTable.BuildEntityTable | codegen/gen-char-ref-data.py:86-107 | the build succeeds exactly on a valid registry, and a failure carries some entry's error. The table is the closure of the stored entries. The emitted names are strictly ascending and are exactly the table's names |
| EntityTable.RegistryEntryKept | codegen/gen-char-ref-data.py:88-98 | every registry entry `&name` is in the final table under `name`, with its own codepoints and a non-zero first slot |
| EntityTable.NamedIffFirstSlotSet | codegen/gen-char-ref-data.py:86-103 | a name of the final table has a non-zero first slot exactly when `&name` is in the registry. Every other name is `[0,0]` |
| EntityTable.EmptyNameSeeded | codegen/gen-char-ref-data.py:86-98 | the empty name is always in the table. It is `[0,0]` unless the registry has the bare key `&`, whose codepoints it then holds |
| EntityTable.EntityMapPrefixClosed | codegen/gen-char-ref-data.py:100-103 | the names of the final table are prefix-closed |
| EntityExample.AmpTableBuilt | codegen/gen-char-ref-data.py:86-103 | the registry `{&amp;: [38], &amp: [38]}` gives the names `""`, `a`, `am`, `amp`, `amp;`. Only the last two have slots set, `(38, 0)` |
| EntityExample.AmpOrderSorted | codegen/gen-char-ref-data.py:107 | the only sorted listing of that table's names is `""`, `a`, `am`, `amp`, `amp;` |
| EntityExample.AmpBuild | codegen/gen-char-ref-data.py:86-107 | the whole build on that registry returns that table and that order |

## Left out

- Reading `entities.json` through `simplejson`, and `sys.argv` (lines 81-84, 113-117), are left out as I/O. The registry is a parameter, a map from key to codepoint list. A JSON entry without a `codepoints` field cannot be expressed.
- All `print` output, the Rust `phf_map!` syntax, and the script's entry sequence (lines 49-52, 70-78, 105-111) are left out. Of the emission, only `rust_char_literal` and the order of the entity names are modelled.
- Splitting a raw line with `split(None, 2)` (line 59) is not modelled. Each line arrives as `Blank` (an empty line, skipped at line 57) or as its list of fields.
- Hex.Parse: Python 2's `int(s, 16)` also accepts surrounding whitespace, a sign and a `0x` prefix, and, on a `unicode` token such as those split from the `u"""` table, non-ASCII Unicode decimal digits. The model accepts only ASCII hexadecimal digits of either case. Every line of the embedded table uses plain ASCII digits.
- The C1 model works in two phases: parse every line, then apply the actions. The script parses and writes in one loop. The two agree, because a failing line aborts the whole build and no table is produced either way (`BuildC1Meaning` states the single-loop meaning).
- The Python 2 narrow/wide `unicode` build distinction and codepoint validity are not modelled. Codepoints are unbounded integers, as the script never checks their range.
- In `ValidateRegistry`, which invalid entry is reported depends on dict order. The model therefore promises only that the error belongs to some entry of the registry.

## Findings

| source | as written | input that shows it | evidently intended | confidence | as-written member | corrected member |
|---|---|---|---|---|---|---|
| codegen/gen-char-ref-data.py:68 | `tbl[ix - 0x80] = ...` uses Python's negative indexing, so a byte in 0x60..0x7F silently overwrites the slot of byte `ix + 0x20` | a table line `0x7F U+0041 ...` stores U+0041 in slot 31, byte 0x9F's slot | only bytes 0x80..0x9F have a slot, and any other non-NUL byte is an error | not executed; latent, because the embedded table has no such line | C1Replacements.PythonListSlotAliases | C1Replacements.C1Slot |

=== FILE: c1_embedded.dfy ===
/**
 The table text embedded in the generator, one entry per line of the
 triple-quoted string (whose first line is empty), and the 32 slots it
 builds.
 */
module C1Embedded {
  import opened Wrappers
  import opened Hex
  import opened C1Replacements

  /** The embedded table text, split into lines and fields. */
  const SpecText: seq<SpecLine> := [
      Blank,
      Fields(["0x00", "U+FFFD", "REPLACEMENT CHARACTER"]),
      Fields(["0x80", "U+20AC", "EURO SIGN (\U{20AC})"]),
      Fields(["0x82", "U+201A", "SINGLE LOW-9 QUOTATION MARK (\U{201A})"]),
      Fields(["0x83", "U+0192", "LATIN SMALL LETTER F WITH HOOK (\U{192})"]),
      Fields(["0x84", "U+201E", "DOUBLE LOW-9 QUOTATION MARK (&ldquor;)"]),
      Fields(["0x85", "U+2026", "HORIZONTAL ELLIPSIS (&mldr;)"]),
      Fields(["0x86", "U+2020", "DAGGER (\U{2020})"]),
      Fields(["0x87", "U+2021", "DOUBLE DAGGER (\U{2021})"]),
      Fields(["0x88", "U+02C6", "MODIFIER LETTER CIRCUMFLEX ACCENT (\U{2C6})"]),
      Fields(["0x89", "U+2030", "PER MILLE SIGN (\U{2030})"]),
      Fields(["0x8A", "U+0160", "LATIN CAPITAL LETTER S WITH CARON (\U{160})"]),
      Fields(["0x8B", "U+2039", "SINGLE LEFT-POINTING ANGLE QUOTATION MARK (\U{2039})"]),
      Fields(["0x8C", "U+0152", "LATIN CAPITAL LIGATURE OE (\U{152})"]),
      Fields(["0x8E", "U+017D", "LATIN CAPITAL LETTER Z WITH CARON (&Zcaron;)"]),
      Fields(["0x91", "U+2018", "LEFT SINGLE QUOTATION MARK (\U{2018})"]),
      Fields(["0x92", "U+2019", "RIGHT SINGLE QUOTATION MARK (&rsquor;)"]),
      Fields(["0x93", "U+201C", "LEFT DOUBLE QUOTATION MARK (\U{201C})"]),
      Fields(["0x94", "U+201D", "RIGHT DOUBLE QUOTATION MARK (\U{201D})"]),
      Fields(["0x95", "U+2022", "BULLET (&bullet;)"]),
      Fields(["0x96", "U+2013", "EN DASH (\U{2013})"]),
      Fields(["0x97", "U+2014", "EM DASH (\U{2014})"]),
      Fields(["0x98", "U+02DC", "SMALL TILDE (\U{2DC})"]),
      Fields(["0x99", "U+2122", "TRADE MARK SIGN (\U{2122})"]),
      Fields(["0x9A", "U+0161", "LATIN SMALL LETTER S WITH CARON (\U{161})"]),
      Fields(["0x9B", "U+203A", "SINGLE RIGHT-POINTING ANGLE QUOTATION MARK (\U{203A})"]),
      Fields(["0x9C", "U+0153", "LATIN SMALL LIGATURE OE (\U{153})"]),
      Fields(["0x9E", "U+017E", "LATIN SMALL LETTER Z WITH CARON (&zcaron;)"]),
      Fields(["0x9F", "U+0178", "LATIN CAPITAL LETTER Y WITH DIAERESIS (\U{178})"])
    ]

  /** What each line of the text does: the blank first line and the NUL line skip. */
  const SpecActions: seq<LineAction> := [
      Skip,
      Skip,
      Store(0, 0x20AC),
      Store(2, 0x201A),
      Store(3, 0x0192),
      Store(4, 0x201E),
      Store(5, 0x2026),
      Store(6, 0x2020),
      Store(7, 0x2021),
      Store(8, 0x02C6),
      Store(9, 0x2030),
      Store(10, 0x0160),
      Store(11, 0x2039),
      Store(12, 0x0152),
      Store(14, 0x017D),
      Store(17, 0x2018),
      Store(18, 0x2019),
      Store(19, 0x201C),
      Store(20, 0x201D),
      Store(21, 0x2022),
      Store(22, 0x2013),
      Store(23, 0x2014),
      Store(24, 0x02DC),
      Store(25, 0x2122),
      Store(26, 0x0161),
      Store(27, 0x203A),
      Store(28, 0x0153),
      Store(30, 0x017E),
      Store(31, 0x0178)
    ]

  /** The table the generator emits as `c1_replacements`, slot `b - 0x80` for byte `b`. */
  const Replacements: seq<Option<nat>> := [
      Some(0x20AC),
      None,
      Some(0x201A),
      Some(0x0192),
      Some(0x201E),
      Some(0x2026),
      Some(0x2020),
      Some(0x2021),
      Some(0x02C6),
      Some(0x2030),
      Some(0x0160),
      Some(0x2039),
      Some(0x0152),
      None,
      Some(0x017D),
      None,
      None,
      Some(0x2018),
      Some(0x2019),
      Some(0x201C),
      Some(0x201D),
      Some(0x2022),
      Some(0x2013),
      Some(0x2014),
      Some(0x02DC),
      Some(0x2122),
      Some(0x0161),
      Some(0x203A),
      Some(0x0153),
      None,
      Some(0x017E),
      Some(0x0178)
    ]

  /** One table line `0xHH U+HHHH ...`, read digit by digit. */
  lemma TableLineParses(parts: seq<string>, index: nat)
    requires |parts| == 3 && |parts[0]| == 4 && |parts[1]| == 6
    requires parts[0][..2] == "0x" && parts[1][..2] == "U+"
    requires forall i :: 2 <= i < 4 ==> IsHexDigit(parts[0][i])
    requires forall i :: 2 <= i < 6 ==> IsHexDigit(parts[1][i])
    ensures var byte := 16 * DigitValue(parts[0][2]) + DigitValue(parts[0][3]);
            var cp := 4096 * DigitValue(parts[1][2]) + 256 * DigitValue(parts[1][3])
                      + 16 * DigitValue(parts[1][4]) + DigitValue(parts[1][5]);
            ParseLine(Fields(parts), index)
            == if byte == 0 then Success(Skip)
               else if FirstByte <= byte < FirstByte + TableSize then Success(Store(byte - FirstByte, cp))
               else Failure(ByteOutOfRange(index, byte))
  {
    ParseTwoDigits(parts[0][2..]);
    ParseFourDigits(parts[1][2..]);
  }

  // The lines are proved one lemma each, and the actions applied in four
  // chunks below: a single proof over all 29 lines of the literal text
  // exceeds the verifier's resource budget.

  /** The blank first line of the text skips. */
  lemma EmbeddedLine0Parses()
    ensures ParseLine(SpecText[0], 0) == Success(SpecActions[0])
  {
    assert SpecText[0] == Blank;
  }

  /** Line 1, the entry for byte 0x00. */
  lemma EmbeddedLine1Parses()
    ensures ParseLine(SpecText[1], 1) == Success(SpecActions[1])
  {
    TableLineParses(SpecText[1].fields, 1);
  }

  /** Line 2, the entry for byte 0x80. */
  lemma EmbeddedLine2Parses()
    ensures ParseLine(SpecText[2], 2) == Success(SpecActions[2])
  {
    TableLineParses(SpecText[2].fields, 2);
  }

  /** Line 3, the entry for byte 0x82. */
  lemma EmbeddedLine3Parses()
    ensures ParseLine(SpecText[3], 3) == Success(SpecActions[3])
  {
    TableLineParses(SpecText[3].fields, 3);
  }

  /** Line 4, the entry for byte 0x83. */
  lemma EmbeddedLine4Parses()
    ensures ParseLine(SpecText[4], 4) == Success(SpecActions[4])
  {
    TableLineParses(SpecText[4].fields, 4);
  }

  /** Line 5, the entry for byte 0x84. */
  lemma EmbeddedLine5Parses()
    ensures ParseLine(SpecText[5], 5) == Success(SpecActions[5])
  {
    TableLineParses(SpecText[5].fields, 5);
  }

  /** Line 6, the entry for byte 0x85. */
  lemma EmbeddedLine6Parses()
    ensures ParseLine(SpecText[6], 6) == Success(SpecActions[6])
  {
    TableLineParses(SpecText[6].fields, 6);
  }

  /** Line 7, the entry for byte 0x86. */
  lemma EmbeddedLine7Parses()
    ensures ParseLine(SpecText[7], 7) == Success(SpecActions[7])
  {
    TableLineParses(SpecText[7].fields, 7);
  }

  /** Line 8, the entry for byte 0x87. */
  lemma EmbeddedLine8Parses()
    ensures ParseLine(SpecText[8], 8) == Success(SpecActions[8])
  {
    TableLineParses(SpecText[8].fields, 8);
  }

  /** Line 9, the entry for byte 0x88. */
  lemma EmbeddedLine9Parses()
    ensures ParseLine(SpecText[9], 9) == Success(SpecActions[9])
  {
    TableLineParses(SpecText[9].fields, 9);
  }

  /** Line 10, the entry for byte 0x89. */
  lemma EmbeddedLine10Parses()
    ensures ParseLine(SpecText[10], 10) == Success(SpecActions[10])
  {
    TableLineParses(SpecText[10].fields, 10);
  }

  /** Line 11, the entry for byte 0x8A. */
  lemma EmbeddedLine11Parses()
    ensures ParseLine(SpecText[11], 11) == Success(SpecActions[11])
  {
    TableLineParses(SpecText[11].fields, 11);
  }

  /** Line 12, the entry for byte 0x8B. */
  lemma EmbeddedLine12Parses()
    ensures ParseLine(SpecText[12], 12) == Success(SpecActions[12])
  {
    TableLineParses(SpecText[12].fields, 12);
  }

  /** Line 13, the entry for byte 0x8C. */
  lemma EmbeddedLine13Parses()
    ensures ParseLine(SpecText[13], 13) == Success(SpecActions[13])
  {
    TableLineParses(SpecText[13].fields, 13);
  }

  /** Line 14, the entry for byte 0x8E. */
  lemma EmbeddedLine14Parses()
    ensures ParseLine(SpecText[14], 14) == Success(SpecActions[14])
  {
    TableLineParses(SpecText[14].fields, 14);
  }

  /** Line 15, the entry for byte 0x91. */
  lemma EmbeddedLine15Parses()
    ensures ParseLine(SpecText[15], 15) == Success(SpecActions[15])
  {
    TableLineParses(SpecText[15].fields, 15);
  }

  /** Line 16, the entry for byte 0x92. */
  lemma EmbeddedLine16Parses()
    ensures ParseLine(SpecText[16], 16) == Success(SpecActions[16])
  {
    TableLineParses(SpecText[16].fields, 16);
  }

  /** Line 17, the entry for byte 0x93. */
  lemma EmbeddedLine17Parses()
    ensures ParseLine(SpecText[17], 17) == Success(SpecActions[17])
  {
    TableLineParses(SpecText[17].fields, 17);
  }

  /** Line 18, the entry for byte 0x94. */
  lemma EmbeddedLine18Parses()
    ensures ParseLine(SpecText[18], 18) == Success(SpecActions[18])
  {
    TableLineParses(SpecText[18].fields, 18);
  }

  /** Line 19, the entry for byte 0x95. */
  lemma EmbeddedLine19Parses()
    ensures ParseLine(SpecText[19], 19) == Success(SpecActions[19])
  {
    TableLineParses(SpecText[19].fields, 19);
  }

  /** Line 20, the entry for byte 0x96. */
  lemma EmbeddedLine20Parses()
    ensures ParseLine(SpecText[20], 20) == Success(SpecActions[20])
  {
    TableLineParses(SpecText[20].fields, 20);
  }

  /** Line 21, the entry for byte 0x97. */
  lemma EmbeddedLine21Parses()
    ensures ParseLine(SpecText[21], 21) == Success(SpecActions[21])
  {
    TableLineParses(SpecText[21].fields, 21);
  }

  /** Line 22, the entry for byte 0x98. */
  lemma EmbeddedLine22Parses()
    ensures ParseLine(SpecText[22], 22) == Success(SpecActions[22])
  {
    TableLineParses(SpecText[22].fields, 22);
  }

  /** Line 23, the entry for byte 0x99. */
  lemma EmbeddedLine23Parses()
    ensures ParseLine(SpecText[23], 23) == Success(SpecActions[23])
  {
    TableLineParses(SpecText[23].fields, 23);
  }

  /** Line 24, the entry for byte 0x9A. */
  lemma EmbeddedLine24Parses()
    ensures ParseLine(SpecText[24], 24) == Success(SpecActions[24])
  {
    TableLineParses(SpecText[24].fields, 24);
  }

  /** Line 25, the entry for byte 0x9B. */
  lemma EmbeddedLine25Parses()
    ensures ParseLine(SpecText[25], 25) == Success(SpecActions[25])
  {
    TableLineParses(SpecText[25].fields, 25);
  }

  /** Line 26, the entry for byte 0x9C. */
  lemma EmbeddedLine26Parses()
    ensures ParseLine(SpecText[26], 26) == Success(SpecActions[26])
  {
    TableLineParses(SpecText[26].fields, 26);
  }

  /** Line 27, the entry for byte 0x9E. */
  lemma EmbeddedLine27Parses()
    ensures ParseLine(SpecText[27], 27) == Success(SpecActions[27])
  {
    TableLineParses(SpecText[27].fields, 27);
  }

  /** Line 28, the entry for byte 0x9F. */
  lemma EmbeddedLine28Parses()
    ensures ParseLine(SpecText[28], 28) == Success(SpecActions[28])
  {
    TableLineParses(SpecText[28].fields, 28);
  }

  /** Every line of the embedded text is well formed and does what `SpecActions` says. */
  lemma EmbeddedLinesParse()
    ensures ParseLines(SpecText) == Success(SpecActions)
  {
    forall j | 0 <= j < |SpecText| ensures ParseLine(SpecText[j], j) == Success(SpecActions[j]) {
      if j == 0 {
        EmbeddedLine0Parses();
      } else if j == 1 {
        EmbeddedLine1Parses();
      } else if j == 2 {
        EmbeddedLine2Parses();
      } else if j == 3 {
        EmbeddedLine3Parses();
      } else if j == 4 {
        EmbeddedLine4Parses();
      } else if j == 5 {
        EmbeddedLine5Parses();
      } else if j == 6 {
        EmbeddedLine6Parses();
      } else if j == 7 {
        EmbeddedLine7Parses();
      } else if j == 8 {
        EmbeddedLine8Parses();
      } else if j == 9 {
        EmbeddedLine9Parses();
      } else if j == 10 {
        EmbeddedLine10Parses();
      } else if j == 11 {
        EmbeddedLine11Parses();
      } else if j == 12 {
        EmbeddedLine12Parses();
      } else if j == 13 {
        EmbeddedLine13Parses();
      } else if j == 14 {
        EmbeddedLine14Parses();
      } else if j == 15 {
        EmbeddedLine15Parses();
      } else if j == 16 {
        EmbeddedLine16Parses();
      } else if j == 17 {
        EmbeddedLine17Parses();
      } else if j == 18 {
        EmbeddedLine18Parses();
      } else if j == 19 {
        EmbeddedLine19Parses();
      } else if j == 20 {
        EmbeddedLine20Parses();
      } else if j == 21 {
        EmbeddedLine21Parses();
      } else if j == 22 {
        EmbeddedLine22Parses();
      } else if j == 23 {
        EmbeddedLine23Parses();
      } else if j == 24 {
        EmbeddedLine24Parses();
      } else if j == 25 {
        EmbeddedLine25Parses();
      } else if j == 26 {
        EmbeddedLine26Parses();
      } else if j == 27 {
        EmbeddedLine27Parses();
      } else {
        EmbeddedLine28Parses();
      }
    }
    ParseLinesOf(SpecText, SpecActions);
  }

  /** Actions 0 to 7 of the text, applied to the table the earlier ones built. */
  lemma {:induction false} ApplySpecActions0To7(actions: seq<LineAction>, t: seq<Option<nat>>)
    requires SlotsInRange(actions) && |actions| == |SpecActions|
    requires actions[0] == Skip
    requires actions[1] == Skip
    requires actions[2] == Store(0, 0x20AC)
    requires actions[3] == Store(2, 0x201A)
    requires actions[4] == Store(3, 0x0192)
    requires actions[5] == Store(4, 0x201E)
    requires actions[6] == Store(5, 0x2026)
    requires actions[7] == Store(6, 0x2020)
    requires SlotsInRange(actions[..0]) && ApplyActions(actions[..0]) == t
    ensures SlotsInRange(actions[..8])
    ensures ApplyActions(actions[..8]) == t[0 := Some(0x20AC)][2 := Some(0x201A)][3 := Some(0x0192)][4 := Some(0x201E)][5 := Some(0x2026)][6 := Some(0x2020)]
  {
    ApplyPrefixStep(actions, 0);
    ApplyPrefixStep(actions, 1);
    ApplyPrefixStep(actions, 2);
    ApplyPrefixStep(actions, 3);
    ApplyPrefixStep(actions, 4);
    ApplyPrefixStep(actions, 5);
    ApplyPrefixStep(actions, 6);
    ApplyPrefixStep(actions, 7);
  }

  /** Actions 8 to 14 of the text, applied to the table the earlier ones built. */
  lemma {:induction false} ApplySpecActions8To14(actions: seq<LineAction>, t: seq<Option<nat>>)
    requires SlotsInRange(actions) && |actions| == |SpecActions|
    requires actions[8] == Store(7, 0x2021)
    requires actions[9] == Store(8, 0x02C6)
    requires actions[10] == Store(9, 0x2030)
    requires actions[11] == Store(10, 0x0160)
    requires actions[12] == Store(11, 0x2039)
    requires actions[13] == Store(12, 0x0152)
    requires actions[14] == Store(14, 0x017D)
    requires SlotsInRange(actions[..8]) && ApplyActions(actions[..8]) == t
    ensures SlotsInRange(actions[..15])
    ensures ApplyActions(actions[..15]) == t[7 := Some(0x2021)][8 := Some(0x02C6)][9 := Some(0x2030)][10 := Some(0x0160)][11 := Some(0x2039)][12 := Some(0x0152)][14 := Some(0x017D)]
  {
    ApplyPrefixStep(actions, 8);
    ApplyPrefixStep(actions, 9);
    ApplyPrefixStep(actions, 10);
    ApplyPrefixStep(actions, 11);
    ApplyPrefixStep(actions, 12);
    ApplyPrefixStep(actions, 13);
    ApplyPrefixStep(actions, 14);
  }

  /** Actions 15 to 21 of the text, applied to the table the earlier ones built. */
  lemma {:induction false} ApplySpecActions15To21(actions: seq<LineAction>, t: seq<Option<nat>>)
    requires SlotsInRange(actions) && |actions| == |SpecActions|
    requires actions[15] == Store(17, 0x2018)
    requires actions[16] == Store(18, 0x2019)
    requires actions[17] == Store(19, 0x201C)
    requires actions[18] == Store(20, 0x201D)
    requires actions[19] == Store(21, 0x2022)
    requires actions[20] == Store(22, 0x2013)
    requires actions[21] == Store(23, 0x2014)
    requires SlotsInRange(actions[..15]) && ApplyActions(actions[..15]) == t
    ensures SlotsInRange(actions[..22])
    ensures ApplyActions(actions[..22]) == t[17 := Some(0x2018)][18 := Some(0x2019)][19 := Some(0x201C)][20 := Some(0x201D)][21 := Some(0x2022)][22 := Some(0x2013)][23 := Some(0x2014)]
  {
    ApplyPrefixStep(actions, 15);
    ApplyPrefixStep(actions, 16);
    ApplyPrefixStep(actions, 17);
    ApplyPrefixStep(actions, 18);
    ApplyPrefixStep(actions, 19);
    ApplyPrefixStep(actions, 20);
    ApplyPrefixStep(actions, 21);
  }

  /** Actions 22 to 28 of the text, applied to the table the earlier ones built. */
  lemma {:induction false} ApplySpecActions22To28(actions: seq<LineAction>, t: seq<Option<nat>>)
    requires SlotsInRange(actions) && |actions| == |SpecActions|
    requires actions[22] == Store(24, 0x02DC)
    requires actions[23] == Store(25, 0x2122)
    requires actions[24] == Store(26, 0x0161)
    requires actions[25] == Store(27, 0x203A)
    requires actions[26] == Store(28, 0x0153)
    requires actions[27] == Store(30, 0x017E)
    requires actions[28] == Store(31, 0x0178)
    requires SlotsInRange(actions[..22]) && ApplyActions(actions[..22]) == t
    ensures SlotsInRange(actions[..29])
    ensures ApplyActions(actions[..29]) == t[24 := Some(0x02DC)][25 := Some(0x2122)][26 := Some(0x0161)][27 := Some(0x203A)][28 := Some(0x0153)][30 := Some(0x017E)][31 := Some(0x0178)]
  {
    ApplyPrefixStep(actions, 22);
    ApplyPrefixStep(actions, 23);
    ApplyPrefixStep(actions, 24);
    ApplyPrefixStep(actions, 25);
    ApplyPrefixStep(actions, 26);
    ApplyPrefixStep(actions, 27);
    ApplyPrefixStep(actions, 28);
  }

  /** The stores of the text, written into an empty table, give `Replacements`. */
  lemma StoresGiveReplacements()
    ensures EmptyTable()[0 := Some(0x20AC)][2 := Some(0x201A)][3 := Some(0x0192)][4 := Some(0x201E)][5 := Some(0x2026)][6 := Some(0x2020)][7 := Some(0x2021)][8 := Some(0x02C6)][9 := Some(0x2030)][10 := Some(0x0160)][11 := Some(0x2039)][12 := Some(0x0152)][14 := Some(0x017D)][17 := Some(0x2018)][18 := Some(0x2019)][19 := Some(0x201C)][20 := Some(0x201D)][21 := Some(0x2022)][22 := Some(0x2013)][23 := Some(0x2014)][24 := Some(0x02DC)][25 := Some(0x2122)][26 := Some(0x0161)][27 := Some(0x203A)][28 := Some(0x0153)][30 := Some(0x017E)][31 := Some(0x0178)] == Replacements
  {
  }

  /** Any list equal to the actions of the text fills exactly the slots of `Replacements`. */
  lemma {:induction false} ApplyEmbeddedActions(actions: seq<LineAction>)
    requires |actions| == |SpecActions|
    requires forall i :: 0 <= i < |actions| ==> actions[i] == SpecActions[i]
    ensures SlotsInRange(actions)
    ensures ApplyActions(actions) == Replacements
  {
    assert SlotsInRange(actions);
    var t0 := EmptyTable();
    assert ApplyActions(actions[..0]) == t0;
    ApplySpecActions0To7(actions, t0);
    var t8 := t0[0 := Some(0x20AC)][2 := Some(0x201A)][3 := Some(0x0192)][4 := Some(0x201E)][5 := Some(0x2026)][6 := Some(0x2020)];
    ApplySpecActions8To14(actions, t8);
    var t15 := t8[7 := Some(0x2021)][8 := Some(0x02C6)][9 := Some(0x2030)][10 := Some(0x0160)][11 := Some(0x2039)][12 := Some(0x0152)][14 := Some(0x017D)];
    ApplySpecActions15To21(actions, t15);
    var t22 := t15[17 := Some(0x2018)][18 := Some(0x2019)][19 := Some(0x201C)][20 := Some(0x201D)][21 := Some(0x2022)][22 := Some(0x2013)][23 := Some(0x2014)];
    ApplySpecActions22To28(actions, t22);
    assert actions[..29] == actions;
    StoresGiveReplacements();
  }

  /** The actions of the text, applied in order, fill exactly the slots of `Replacements`. */
  lemma EmbeddedActionsApply()
    ensures SlotsInRange(SpecActions)
    ensures ApplyActions(SpecActions) == Replacements
  {
    ApplyEmbeddedActions(SpecActions);
  }
  /** Building from the embedded text succeeds and yields exactly `Replacements`. */
  lemma EmbeddedTableBuilds()
    ensures BuildC1(SpecText) == Success(Replacements)
  {
    EmbeddedLinesParse();
    EmbeddedActionsApply();
  }

  /** The bytes 0x81, 0x8D, 0x8F, 0x90 and 0x9D have no line and keep no remapping. */
  const UnlistedSlots: set<nat> := {0x01, 0x0D, 0x0F, 0x10, 0x1D}

  /** Which slots of `Replacements` are empty, and that none holds U+FFFD. */
  lemma ReplacementsSlots()
    ensures |Replacements| == TableSize
    ensures forall s :: 0 <= s < TableSize ==> (Replacements[s].None? <==> s in UnlistedSlots)
    ensures forall s :: 0 <= s < TableSize ==> Replacements[s] != Some(0xFFFD)
  {
  }

  /**
   The facts about the generated table the parser relies on: byte 0x80 maps
   to the euro sign, exactly the five unlisted bytes stay empty, and the
   skipped NUL line's U+FFFD lands in no slot.
   */
  lemma EmbeddedTableSlots()
    ensures BuildC1(SpecText).Success?
    ensures BuildC1(SpecText).value[0] == Some(0x20AC)
    ensures forall s :: 0 <= s < TableSize ==> (BuildC1(SpecText).value[s].None? <==> s in UnlistedSlots)
    ensures forall s :: 0 <= s < TableSize ==> BuildC1(SpecText).value[s] != Some(0xFFFD)
  {
    EmbeddedTableBuilds();
    ReplacementsSlots();
  }
}

=== FILE: c1_replacements.dfy ===
/**
 The C1 replacement table: HTML replaces most characters of the C1 control
 range U+0080..U+009F with the Windows-1252 characters listed in a
 copy-pasted text table, whose first column names each by its byte value
 0x80..0x9F. The generator turns that table into 32 optional codepoints,
 slot `b - 0x80` for byte `b`.
 */
module C1Replacements {
  import opened Wrappers
  import opened Hex

  const TableSize: nat := 32
  /** The byte that slot 0 stands for. */
  const FirstByte: nat := 0x80
  /** The table before any line is applied: no byte is remapped. */
  function EmptyTable(): (t: seq<Option<nat>>)
    ensures |t| == TableSize && forall i :: 0 <= i < |t| ==> t[i].None?
  {
    seq(TableSize, _ => None)
  }

  /**
   One line of the table text: an empty line, or the whitespace-separated
   fields of a non-empty one (byte, codepoint, and the rest of the line as
   one description field).
   */
  datatype SpecLine = Blank | Fields(fields: seq<string>)

  /** Why a table line aborts the build; `line` is its position in the text. */
  datatype C1Error =
    | MissingField(line: nat)
    | BadBytePrefix(line: nat)
    | BadCodepointPrefix(line: nat)
    | BadHex(line: nat)
    | ByteOutOfRange(line: nat, byte: nat)

  /** What one well-formed line does to the table. */
  datatype LineAction = Skip | Store(slot: nat, codepoint: nat)

  predicate HasPrefix(token: string, prefix: string) {
    |token| >= |prefix| && token[..|prefix|] == prefix
  }

  /** A byte field with its `0x` prefix followed by a codepoint field with its `U+` prefix. */
  predicate WellShaped(parts: seq<string>) {
    |parts| >= 2 && HasPrefix(parts[0], "0x") && HasPrefix(parts[1], "U+")
  }

  /**
   Python's `tbl[ix - 0x80]` on a 32-element list: an index in -32..-1
   counts from the end, anything else outside 0..31 raises.
   */
  function PythonListSlot(byte: nat): (r: Option<nat>)
    ensures r.Some? ==> r.value < TableSize
    ensures r.Some? <==> FirstByte - TableSize <= byte < FirstByte + TableSize
    ensures r.Some? ==> r.value == (byte - FirstByte) % TableSize
  {
    var i: int := byte - FirstByte;
    if 0 <= i < TableSize then Some(i)
    else if -(TableSize as int) <= i < 0 then Some(i + TableSize)
    else None
  }

  /** As written, a stray line for byte 0x7F would land in byte 0x9F's slot. */
  lemma PythonListSlotAliases()
    ensures PythonListSlot(0x7F) == PythonListSlot(0x9F) == Some(31)
    ensures PythonListSlot(0x60) == PythonListSlot(0x80) == Some(0)
  {
  }

  /** The slot of a byte in the C1 range, and no slot for any other byte. */
  function C1Slot(byte: nat): (r: Option<nat>)
    ensures r.Some? <==> FirstByte <= byte < FirstByte + TableSize
    ensures r.Some? ==> r.value < TableSize && FirstByte + r.value == byte
  {
    if FirstByte <= byte < FirstByte + TableSize then Some(byte - FirstByte) else None
  }

  /** Distinct bytes never share a slot. */
  lemma C1SlotInjective(a: nat, b: nat)
    requires C1Slot(a).Some? && C1Slot(a) == C1Slot(b)
    ensures a == b
  {
  }

  /**
   One iteration of the table loop. Python's checks come in this order:
   the first field, its `0x` prefix, the second field, its `U+` prefix, the
   byte's hex, the NUL skip (which happens before the codepoint is parsed),
   the codepoint's hex (the right-hand side is evaluated before the
   subscript), and last the slot.
   */
  function ParseLine(line: SpecLine, index: nat): (r: Result<LineAction, C1Error>)
    ensures line.Blank? ==> r == Success(Skip)
    ensures r.Failure? ==> r.error.line == index
    ensures line.Fields? && !WellShaped(line.fields) ==> r.Failure?
    ensures r.Success? && r.value.Store? ==>
      && r.value.slot < TableSize
      && line.Fields? && |line.fields| >= 2
      && Parse(line.fields[0][2..]) == Some(FirstByte + r.value.slot)
      && Parse(line.fields[1][2..]) == Some(r.value.codepoint)
    ensures r.Success? && r.value.Skip? ==>
      line.Blank? || (|line.fields| >= 2 && Parse(line.fields[0][2..]) == Some(0))
    ensures line.Fields? && WellShaped(line.fields) && Parse(line.fields[0][2..]) == Some(0) ==>
      r == Success(Skip)
  {
    match line
    case Blank => Success(Skip)
    case Fields(parts) =>
      if |parts| < 1 then Failure(MissingField(index))
      else if !HasPrefix(parts[0], "0x") then Failure(BadBytePrefix(index))
      else if |parts| < 2 then Failure(MissingField(index))
      else if !HasPrefix(parts[1], "U+") then Failure(BadCodepointPrefix(index))
      else
        match Parse(parts[0][2..])
        case None => Failure(BadHex(index))
        case Some(byte) =>
          if byte == 0 then Success(Skip)
          else
            match Parse(parts[1][2..])
            case None => Failure(BadHex(index))
            case Some(codepoint) =>
              match C1Slot(byte)
              case None => Failure(ByteOutOfRange(index, byte))
              case Some(slot) => Success(Store(slot, codepoint))
  }

  /**
   What a line of fields does, in full: it fails exactly when a field or a
   prefix is missing, the byte's hex is bad, or, for a non-NUL byte, the
   codepoint's hex is bad or the byte is outside the C1 range. A well-formed
   non-NUL line in that range stores its codepoint in the byte's slot.
   Digits of either case are read.
   */
  lemma ParseLineMeaning(parts: seq<string>, index: nat)
    ensures !WellShaped(parts) ==>
      var r := ParseLine(Fields(parts), index);
      r.Failure? && (r.error.MissingField? || r.error.BadBytePrefix? || r.error.BadCodepointPrefix?)
    ensures WellShaped(parts) && Parse(parts[0][2..]).None? ==>
      ParseLine(Fields(parts), index) == Failure(BadHex(index))
    ensures WellShaped(parts) && Parse(parts[0][2..]) == Some(0) ==>
      ParseLine(Fields(parts), index) == Success(Skip)
    ensures WellShaped(parts) && Parse(parts[0][2..]).Some? && Parse(parts[0][2..]) != Some(0) ==>
      Parse(parts[1][2..]).None? ==> ParseLine(Fields(parts), index) == Failure(BadHex(index))
    ensures WellShaped(parts) && Parse(parts[0][2..]).Some? && Parse(parts[0][2..]) != Some(0) ==>
      Parse(parts[1][2..]).Some? ==>
        var byte := Parse(parts[0][2..]).value;
        var codepoint := Parse(parts[1][2..]).value;
        ParseLine(Fields(parts), index)
        == if C1Slot(byte).Some? then Success(Store(byte - FirstByte, codepoint))
           else Failure(ByteOutOfRange(index, byte))
  {
  }

  /** A line fails exactly on a missing field or prefix, bad hex, or a non-NUL byte outside the C1 range. */
  lemma ParseLineFailure(parts: seq<string>, index: nat)
    ensures ParseLine(Fields(parts), index).Failure? <==>
      || !WellShaped(parts)
      || Parse(parts[0][2..]).None?
      || (Parse(parts[0][2..]) != Some(0)
          && (Parse(parts[1][2..]).None? || C1Slot(Parse(parts[0][2..]).value).None?))
  {
    ParseLineMeaning(parts, index);
  }

  /** A table line in lower-case, zero-padded spelling. */
  function FormatLine(byte: nat, codepoint: nat, description: string): SpecLine {
    Fields(["0x" + PadLeft(ToLowerHex(byte), 2), "U+" + PadLeft(ToLowerHex(codepoint), 4), description])
  }

  /** The fields of a line that has both prefixes and a given byte and codepoint. */
  predicate FieldsSay(parts: seq<string>, byte: nat, codepoint: nat) {
    && WellShaped(parts)
    && Parse(parts[0][2..]) == Some(byte)
    && Parse(parts[1][2..]) == Some(codepoint)
  }

  lemma FormattedFieldsSay(byte: nat, codepoint: nat, description: string)
    ensures FieldsSay(FormatLine(byte, codepoint, description).fields, byte, codepoint)
  {
    var b := PadLeft(ToLowerHex(byte), 2);
    var c := PadLeft(ToLowerHex(codepoint), 4);
    var f := FormatLine(byte, codepoint, description).fields;
    assert f == ["0x" + b, "U+" + c, description];
    assert ("0x" + b)[..2] == "0x" && ("0x" + b)[2..] == b;
    assert ("U+" + c)[..2] == "U+" && ("U+" + c)[2..] == c;
    PaddedRoundTrip(byte, 2);
    PaddedRoundTrip(codepoint, 4);
  }

  /** A lower-case line written for a C1 byte is read back as a store of its codepoint in that byte's slot. */
  lemma ParseFormattedLine(byte: nat, codepoint: nat, description: string, index: nat)
    requires FirstByte <= byte < FirstByte + TableSize
    ensures ParseLine(FormatLine(byte, codepoint, description), index)
         == Success(Store(byte - FirstByte, codepoint))
  {
    FormattedFieldsSay(byte, codepoint, description);
  }

  /** The NUL line writes nothing, whatever codepoint it names. */
  lemma ParseFormattedNulLine(codepoint: nat, description: string, index: nat)
    ensures ParseLine(FormatLine(0, codepoint, description), index) == Success(Skip)
  {
    FormattedFieldsSay(0, codepoint, description);
  }

  /** Line `j` is well formed and stores something into slot `s`. */
  ghost predicate Writes(lines: seq<SpecLine>, j: int, s: nat) {
    && 0 <= j < |lines|
    && ParseLine(lines[j], j).Success?
    && ParseLine(lines[j], j).value.Store?
    && ParseLine(lines[j], j).value.slot == s
  }

  /**
   Reference meaning of slot `s`: empty when no line writes it, otherwise
   the codepoint of the last line that does.
   */
  ghost predicate SlotFilledBy(lines: seq<SpecLine>, s: nat, o: Option<nat>) {
    match o
    case None => forall j :: 0 <= j < |lines| ==> !Writes(lines, j, s)
    case Some(v) =>
      exists j :: 0 <= j < |lines| && ParseLine(lines[j], j) == Success(Store(s, v))
                  && forall k :: j < k < |lines| ==> !Writes(lines, k, s)
  }

  /** A slot's meaning survives appending a line that does not write it. */
  lemma SlotFilledByExtend(lines: seq<SpecLine>, s: nat, o: Option<nat>)
    requires |lines| > 0
    requires SlotFilledBy(lines[..|lines| - 1], s, o)
    requires !Writes(lines, |lines| - 1, s)
    ensures SlotFilledBy(lines, s, o)
  {
    var init := lines[..|lines| - 1];
    assert forall j :: 0 <= j < |init| ==> init[j] == lines[j];
    match o
    case None =>
      forall j | 0 <= j < |lines| ensures !Writes(lines, j, s) {
        if j < |init| { assert !Writes(init, j, s); }
      }
    case Some(v) =>
      var j :| 0 <= j < |init| && ParseLine(init[j], j) == Success(Store(s, v))
               && forall k :: j < k < |init| ==> !Writes(init, k, s);
      forall k | j < k < |lines| ensures !Writes(lines, k, s) {
        if k < |init| { assert !Writes(init, k, s); }
      }
      assert ParseLine(lines[j], j) == Success(Store(s, v));
  }

  /** A slot's reference meaning pins down its content. */
  lemma SlotFilledByUnique(lines: seq<SpecLine>, s: nat, o1: Option<nat>, o2: Option<nat>)
    requires SlotFilledBy(lines, s, o1) && SlotFilledBy(lines, s, o2)
    ensures o1 == o2
  {
    if o1.Some? && o2.Some? {
      var j1 :| 0 <= j1 < |lines| && ParseLine(lines[j1], j1) == Success(Store(s, o1.value))
                && forall k :: j1 < k < |lines| ==> !Writes(lines, k, s);
      var j2 :| 0 <= j2 < |lines| && ParseLine(lines[j2], j2) == Success(Store(s, o2.value))
                && forall k :: j2 < k < |lines| ==> !Writes(lines, k, s);
      assert Writes(lines, j1, s) && Writes(lines, j2, s);
    } else if o1.Some? {
      var j1 :| 0 <= j1 < |lines| && ParseLine(lines[j1], j1) == Success(Store(s, o1.value));
      assert Writes(lines, j1, s);
    } else if o2.Some? {
      var j2 :| 0 <= j2 < |lines| && ParseLine(lines[j2], j2) == Success(Store(s, o2.value));
      assert Writes(lines, j2, s);
    }
  }

  /** The first line of the text that aborts the build. */
  ghost predicate FirstBadLine(lines: seq<SpecLine>, i: int, e: C1Error) {
    && 0 <= i < |lines|
    && ParseLine(lines[i], i) == Failure(e)
    && forall j :: 0 <= j < i ==> ParseLine(lines[j], j).Success?
  }

  /**
   Every line's action, in order, or the error of the first line that is
   malformed. The loop has no output until it finishes, so reading all lines
   first and then filling the table aborts on exactly the same line.
   */
  function ParseLines(lines: seq<SpecLine>): (r: Result<seq<LineAction>, C1Error>)
    ensures r.Success? ==> |r.value| == |lines|
    ensures r.Success? ==> forall i :: 0 <= i < |lines| ==> ParseLine(lines[i], i) == Success(r.value[i])
    decreases |lines|
  {
    if |lines| == 0 then Success([])
    else
      var last := |lines| - 1;
      match ParseLines(lines[..last])
      case Failure(e) => Failure(e)
      case Success(actions) =>
        match ParseLine(lines[last], last)
        case Failure(e) => Failure(e)
        case Success(a) =>
          assert forall i :: 0 <= i < last ==> lines[..last][i] == lines[i];
          Success(actions + [a])
  }

  predicate SlotsInRange(actions: seq<LineAction>) {
    forall i :: 0 <= i < |actions| ==> actions[i].Store? ==> actions[i].slot < TableSize
  }

  /** One action applied to a table: a store overwrites its slot, a skip changes nothing. */
  function ApplyAction(t: seq<Option<nat>>, a: LineAction): (t': seq<Option<nat>>)
    requires a.Store? ==> a.slot < |t|
    ensures |t'| == |t|
    ensures forall s :: 0 <= s < |t| && !(a.Store? && a.slot == s) ==> t'[s] == t[s]
    ensures a.Store? ==> t'[a.slot] == Some(a.codepoint)
  {
    match a
    case Skip => t
    case Store(slot, v) => t[slot := Some(v)]
  }

  /** The 32 slots after applying `actions` in order to an all-`None` table. */
  function ApplyActions(actions: seq<LineAction>): (t: seq<Option<nat>>)
    requires SlotsInRange(actions)
    ensures |t| == TableSize
    decreases |actions|
  {
    if |actions| == 0 then EmptyTable()
    else
      var last := |actions| - 1;
      ApplyAction(ApplyActions(actions[..last]), actions[last])
  }

  /**
   Applying one more action of a well-ranged list changes the table built so
   far in at most the action's own slot.
   */
  lemma ApplyPrefixStep(actions: seq<LineAction>, k: nat)
    requires SlotsInRange(actions) && k < |actions|
    ensures SlotsInRange(actions[..k]) && SlotsInRange(actions[..k + 1])
    ensures actions[k].Skip? ==> ApplyActions(actions[..k + 1]) == ApplyActions(actions[..k])
    ensures actions[k].Store? ==>
      ApplyActions(actions[..k + 1]) == ApplyActions(actions[..k])[actions[k].slot := Some(actions[k].codepoint)]
  {
    assert actions[..k + 1][..k] == actions[..k];
    assert forall i :: 0 <= i < k + 1 ==> actions[..k + 1][i] == actions[i];
  }

  /** `print_c1_replacements`'s table: the actions of all lines, applied in order. */
  function BuildC1(lines: seq<SpecLine>): (r: Result<seq<Option<nat>>, C1Error>)
    ensures r.Success? ==> |r.value| == TableSize
  {
    match ParseLines(lines)
    case Failure(e) => Failure(e)
    case Success(actions) => Success(ApplyActions(actions))
  }

  /** Lines whose actions are known parse to exactly those actions. */
  lemma {:induction false} ParseLinesOf(lines: seq<SpecLine>, actions: seq<LineAction>)
    requires |lines| == |actions|
    requires forall i :: 0 <= i < |lines| ==> ParseLine(lines[i], i) == Success(actions[i])
    ensures ParseLines(lines) == Success(actions)
    decreases |lines|
  {
    if |lines| > 0 {
      var last := |lines| - 1;
      ParseLinesOf(lines[..last], actions[..last]);
      assert actions[..last] + [actions[last]] == actions;
    }
  }

  /**
   The reference meaning of every slot carries over one more well-formed
   line: a skip leaves the table as it was, a store overwrites its slot.
   */
  lemma SlotsFilledStep(lines: seq<SpecLine>, tbl: seq<Option<nat>>, a: LineAction)
    requires |lines| > 0 && |tbl| == TableSize
    requires forall s :: 0 <= s < TableSize ==> SlotFilledBy(lines[..|lines| - 1], s, tbl[s])
    requires ParseLine(lines[|lines| - 1], |lines| - 1) == Success(a)
    ensures a.Store? ==> a.slot < TableSize
    ensures forall s :: 0 <= s < TableSize ==> SlotFilledBy(lines, s, ApplyAction(tbl, a)[s])
  {
    var last := |lines| - 1;
    match a
    case Skip =>
      forall s | 0 <= s < TableSize ensures SlotFilledBy(lines, s, tbl[s]) {
        SlotFilledByExtend(lines, s, tbl[s]);
      }
    case Store(slot, v) =>
      var tbl' := ApplyAction(tbl, a);
      assert SlotFilledBy(lines, slot, tbl'[slot]);
      forall s | 0 <= s < TableSize && s != slot ensures SlotFilledBy(lines, s, tbl'[s]) {
        SlotFilledByExtend(lines, s, tbl[s]);
      }
  }

  /**
   What the loop computes: the build succeeds exactly when every line is
   well formed, fails with the error of the first line that is not, and
   otherwise gives every slot its reference meaning.
   */
  lemma {:induction false} BuildC1Meaning(lines: seq<SpecLine>)
    ensures BuildC1(lines).Success? <==> forall i :: 0 <= i < |lines| ==> ParseLine(lines[i], i).Success?
    ensures BuildC1(lines).Failure? ==> exists i :: FirstBadLine(lines, i, BuildC1(lines).error)
    ensures BuildC1(lines).Success? ==>
      forall s :: 0 <= s < TableSize ==> SlotFilledBy(lines, s, BuildC1(lines).value[s])
    decreases |lines|
  {
    if |lines| == 0 {
      assert ParseLines(lines) == Success([]);
      assert BuildC1(lines) == Success(EmptyTable());
    } else {
      var last := |lines| - 1;
      var init := lines[..last];
      assert forall j :: 0 <= j < last ==> init[j] == lines[j];
      BuildC1Meaning(init);
      match ParseLines(init)
      case Failure(e) =>
        var i :| FirstBadLine(init, i, e);
        assert FirstBadLine(lines, i, e);
      case Success(actions) =>
        var tbl := ApplyActions(actions);
        assert BuildC1(init) == Success(tbl);
        match ParseLine(lines[last], last)
        case Failure(e) =>
          assert FirstBadLine(lines, last, e);
        case Success(a) =>
          var all := actions + [a];
          assert all[..last] == actions;
          assert ParseLines(lines) == Success(all);
          SlotsFilledStep(lines, tbl, a);
    }
  }
}

=== FILE: char_literal.dfy ===
/**
 The Rust `char` literal the generator writes for every codepoint it emits:
 `'\U` followed by the value in lower-case hex, zero-padded to eight
 characters by Python's `%08x`, and a closing quote.
 */
module CharLiteral {
  import opened Wrappers
  import opened Hex

  const Open: string := "'\\U"
  const Close: string := "'"

  /**
   Python's `%08x`: lower-case hex, zero-padded to a width of eight; for a
   negative value the sign counts toward the width, so seven digits remain.
   */
  function Format08x(n: int): (s: string)
    ensures |s| >= 8
    ensures n >= 0 ==> AllLowerHex(s)
    ensures 0 <= n < Pow16(8) ==> |s| == 8
    ensures n < 0 <==> (s[0] == '-')
  {
    if n >= 0 then
      var d := ToLowerHex(n);
      assert n < Pow16(8) ==> |d| <= 8 by {
        if n < Pow16(8) { DigitCountBound(d, 8); }
      }
      var p := PadLeft(d, 8);
      assert AllLowerHex(p) by {
        forall i | 0 <= i < |p| ensures IsLowerHexDigit(p[i]) {
          if i >= |p| - |d| { assert p[i] == p[|p| - |d|..][i - (|p| - |d|)] == d[i - (|p| - |d|)]; }
        }
      }
      p
    else
      "-" + PadLeft(ToLowerHex(-n), 7)
  }

  /** A canonical digit string below sixteen to the `w` has at most `w` digits. */
  lemma {:induction false} DigitCountBound(d: string, w: nat)
    requires AllHex(d) && |d| > 0 && (|d| > 1 ==> d[0] != '0')
    requires w >= 1 && Value(d) < Pow16(w)
    ensures |d| <= w
  {
    if |d| > w {
      LeadingDigitLower(d);
      PowMonotone(w, |d| - 1);
    }
  }

  lemma {:induction false} LeadingDigitLower(d: string)
    requires AllHex(d) && |d| > 1 && d[0] != '0'
    ensures Value(d) >= Pow16(|d| - 1)
    decreases |d|
  {
    var t := d[..|d| - 1];
    assert t[0] == d[0];
    if |t| > 1 {
      LeadingDigitLower(t);
    } else {
      assert DigitValue(t[0]) >= 1;
      assert Value(t) == 16 * Value(t[..0]) + DigitValue(t[0]);
    }
  }

  lemma {:induction false} PowMonotone(a: nat, b: nat)
    requires a <= b
    ensures Pow16(a) <= Pow16(b)
    decreases b
  {
    if a < b { PowMonotone(a, b - 1); }
  }

  /** `rust_char_literal`: the literal text for one codepoint. */
  function RustCharLiteral(codepoint: int): (lit: string)
    ensures |lit| >= 12
    ensures lit[..3] == Open && lit[|lit| - 1..] == Close
    ensures 0 <= codepoint < Pow16(8) ==> |lit| == 12
    ensures codepoint >= 0 ==> AllLowerHex(lit[3..|lit| - 1])
  {
    var body := Format08x(codepoint);
    var lit := Open + body + Close;
    assert lit[3..|lit| - 1] == body;
    lit
  }

  /** Reads a literal back to the codepoint it denotes, the inverse of `RustCharLiteral`. */
  function DecodeCharLiteral(lit: string): (r: Option<int>)
    ensures r.Some? ==> |lit| >= 5 && lit[..3] == Open && lit[|lit| - 1..] == Close
  {
    if |lit| < 5 || lit[..3] != Open || lit[|lit| - 1..] != Close then None
    else
      var body := lit[3..|lit| - 1];
      if body[0] == '-' then
        match Parse(body[1..])
        case Some(v) => Some(-(v as int))
        case None => None
      else
        match Parse(body)
        case Some(v) => Some(v)
        case None => None
  }

  /** Every emitted literal decodes to the codepoint it was made from. */
  lemma CharLiteralRoundTrip(codepoint: int)
    ensures DecodeCharLiteral(RustCharLiteral(codepoint)) == Some(codepoint)
  {
    var lit := RustCharLiteral(codepoint);
    var body := Format08x(codepoint);
    assert lit[3..|lit| - 1] == body;
    if codepoint >= 0 {
      PaddedRoundTrip(codepoint, 8);
      assert body[0] != '-';
    } else {
      PaddedRoundTrip(-codepoint, 7);
      assert body[1..] == PadLeft(ToLowerHex(-codepoint), 7);
    }
  }

  /** Distinct codepoints never share a literal. */
  lemma CharLiteralInjective(a: int, b: int)
    requires RustCharLiteral(a) == RustCharLiteral(b)
    ensures a == b
  {
    CharLiteralRoundTrip(a);
    CharLiteralRoundTrip(b);
  }

  /** Appending a digit to a number appends its digit to the `%x` text. */
  lemma HexAppendDigit(x: nat, d: nat)
    requires 0 < x && d < 16
    ensures ToLowerHex(16 * x + d) == ToLowerHex(x) + [LowerDigit(d)]
  {
    var n := 16 * x + d;
    assert n / 16 == x && n % 16 == d;
  }

  /** `%08x` of a number with four digits pads it with four zeros. */
  lemma FormatFourDigits(n: nat)
    requires |ToLowerHex(n)| == 4
    ensures Format08x(n) == "0000" + ToLowerHex(n)
  {
    assert Zeros(4) == "0000";
  }

  /** The literal of a codepoint with exactly four hex digits, leading digit non-zero. */
  lemma FourDigitLiteral(codepoint: nat, a: nat, b: nat, c: nat, d: nat)
    requires 0 < a < 16 && b < 16 && c < 16 && d < 16
    requires codepoint == 4096 * a + 256 * b + 16 * c + d
    ensures RustCharLiteral(codepoint) == Open + "0000" + [LowerDigit(a), LowerDigit(b), LowerDigit(c), LowerDigit(d)] + Close
  {
    var x2 := 16 * a + b;
    var x3 := 16 * x2 + c;
    HexAppendDigit(a, b);
    HexAppendDigit(x2, c);
    HexAppendDigit(x3, d);
    assert ToLowerHex(codepoint) == [LowerDigit(a), LowerDigit(b), LowerDigit(c), LowerDigit(d)];
    FormatFourDigits(codepoint);
  }

  /** The euro sign, which the C1 table maps byte 0x80 to, as the generator prints it. */
  lemma EuroSignLiteral()
    ensures RustCharLiteral(0x20AC) == "'\\U000020ac'"
  {
    FourDigitLiteral(0x20AC, 2, 0, 10, 12);
  }
}

=== FILE: entity_table.dfy ===
/**
 The named-entity table: every registry entry `&name -> codepoints` is
 checked and stored under `name` as two `char` slots, then every proper
 non-empty prefix of a stored name is added with both slots unused, so the
 tokenizer can tell while matching whether a longer name is still possible.
 */
module EntityTable {
  import opened Wrappers
  import opened LexOrder

  /** The two `char` slots of one entity; an unused slot holds 0. */
  type CodepointPair = (int, int)

  /** The value of the seeded empty name and of every added prefix. */
  const Unused: CodepointPair := (0, 0)

  /** The character every registry key starts with. */
  const Marker: char := '&'

  /** Why a registry entry aborts the build. */
  datatype EntityError =
    | ZeroCodepoint(key: string)
    | BadArity(key: string)
    | EmptyKey
    | MissingMarker(key: string)

  /** What the generator accepts: non-zero codepoints, one or two of them, and a key `&name`. */
  predicate EntryOk(key: string, codepoints: seq<int>) {
    && 0 !in codepoints
    && 0 < |codepoints| <= 2
    && |key| > 0 && key[0] == Marker
  }

  /** Two slots from one or two codepoints, a single one padded with a trailing 0. */
  function Pad(codepoints: seq<int>): CodepointPair
    requires 0 < |codepoints| <= 2
  {
    if |codepoints| == 1 then (codepoints[0], 0) else (codepoints[0], codepoints[1])
  }

  /** The codepoints two slots stand for: an unused second slot is dropped. */
  function Unpad(p: CodepointPair): seq<int> {
    if p.1 == 0 then [p.0] else [p.0, p.1]
  }

  /** Padding non-zero codepoints loses nothing. */
  lemma PadRoundTrip(codepoints: seq<int>)
    requires 0 < |codepoints| <= 2 && 0 !in codepoints
    ensures Unpad(Pad(codepoints)) == codepoints
    ensures Pad(codepoints).0 != 0
  {
    if |codepoints| == 2 {
      assert codepoints[1] in codepoints;
    }
  }

  /**
   One iteration of the registry loop. The checks come in the generator's
   order: a zero codepoint, then the number of codepoints, then the key's
   first character (indexing an empty key raises before the comparison).
   */
  function ValidateEntry(key: string, codepoints: seq<int>): (r: Result<(string, CodepointPair), EntityError>)
    ensures r.Success? <==> EntryOk(key, codepoints)
    ensures r.Success? ==> [Marker] + r.value.0 == key
    ensures r.Success? ==> r.value.1.0 != 0 && Unpad(r.value.1) == codepoints
    ensures r == Failure(ZeroCodepoint(key)) <==> 0 in codepoints
    ensures r == Failure(BadArity(key)) <==> 0 !in codepoints && !(0 < |codepoints| <= 2)
    ensures r == Failure(EmptyKey) <==> 0 !in codepoints && 0 < |codepoints| <= 2 && |key| == 0
    ensures r == Failure(MissingMarker(key)) <==> 0 !in codepoints && 0 < |codepoints| <= 2 && |key| > 0 && key[0] != Marker
  {
    if 0 in codepoints then Failure(ZeroCodepoint(key))
    else if !(0 < |codepoints| <= 2) then Failure(BadArity(key))
    else if |key| == 0 then Failure(EmptyKey)
    else if key[0] != Marker then Failure(MissingMarker(key))
    else
      PadRoundTrip(codepoints);
      assert [Marker] + key[1..] == key;
      Success((key[1..], Pad(codepoints)))
  }

  /** Removing the marker never merges two keys. */
  lemma StripInjective(k1: string, k2: string)
    requires |k1| > 0 && |k2| > 0 && k1[0] == Marker && k2[0] == Marker
    requires k1[1..] == k2[1..]
    ensures k1 == k2
  {
    assert k1 == [k1[0]] + k1[1..];
    assert k2 == [k2[0]] + k2[1..];
  }

  ghost predicate ValidRegistry(reg: map<string, seq<int>>) {
    forall k :: k in reg ==> EntryOk(k, reg[k])
  }

  /**
   The map after the entries in `done` are stored, on top of the seeded
   empty name; the bare key `&` overrides the seed.
   */
  ghost function StoredFrom(reg: map<string, seq<int>>, done: set<string>): map<string, CodepointPair>
    requires done <= reg.Keys
    requires forall k :: k in done ==> EntryOk(k, reg[k])
  {
    map[[] := Unused] + Named(reg, done)
  }

  /** The entries of `done`, each under its key without the marker. */
  ghost function Named(reg: map<string, seq<int>>, done: set<string>): map<string, CodepointPair>
    requires done <= reg.Keys
    requires forall k :: k in done ==> EntryOk(k, reg[k])
  {
    AcceptedKeys(reg, done);
    map k | k in done :: k[1..] := Pad(reg[k])
  }

  /** Accepted keys carry the marker, and distinct ones leave distinct names. */
  lemma AcceptedKeys(reg: map<string, seq<int>>, done: set<string>)
    requires done <= reg.Keys
    requires forall k :: k in done ==> EntryOk(k, reg[k])
    ensures forall k :: k in done ==> |k| > 0 && k[0] == Marker && 0 < |reg[k]| <= 2
    ensures forall k1, k2 :: k1 in done && k2 in done && k1 != k2 ==> k1[1..] != k2[1..]
  {
    forall k1, k2 | k1 in done && k2 in done && k1[1..] == k2[1..] ensures k1 == k2 {
      StripInjective(k1, k2);
    }
  }

  /** The map the validation pass leaves behind. */
  ghost function Stored(reg: map<string, seq<int>>): map<string, CodepointPair>
    requires ValidRegistry(reg)
  {
    StoredFrom(reg, reg.Keys)
  }

  /** Where a name of the stored map comes from: its registry key `&name`, or the seed. */
  lemma StoredFromAt(reg: map<string, seq<int>>, done: set<string>, name: string)
    requires done <= reg.Keys
    requires forall k :: k in done ==> EntryOk(k, reg[k])
    ensures name in StoredFrom(reg, done) <==> name == [] || [Marker] + name in done
    ensures [Marker] + name in done ==> StoredFrom(reg, done)[name] == Pad(reg[[Marker] + name])
    ensures name == [] && [Marker] !in done ==> StoredFrom(reg, done)[name] == Unused
  {
    AcceptedKeys(reg, done);
    var key := [Marker] + name;
    assert key[1..] == name;
    assert name == [] ==> key == [Marker];
    if j :| j in done && j[1..] == name {
      StripInjective(j, key);
    } else {
      assert name !in Named(reg, done);
    }
  }

  /** Storing one more entry, seen at a single name. */
  lemma StoredFromAddAt(reg: map<string, seq<int>>, done: set<string>, k: string, name: string)
    requires done <= reg.Keys && k in reg && k !in done
    requires forall j :: j in done ==> EntryOk(j, reg[j])
    requires EntryOk(k, reg[k])
    ensures var expected := StoredFrom(reg, done)[k[1..] := Pad(reg[k])];
      (name in StoredFrom(reg, done + {k}) <==> name in expected)
      && (name in expected ==> StoredFrom(reg, done + {k})[name] == expected[name])
  {
    assert k == [Marker] + k[1..];
    StoredFromAt(reg, done, name);
    StoredFromAt(reg, done + {k}, name);
  }

  /** Storing one more entry updates exactly its own name. */
  lemma StoredFromAdd(reg: map<string, seq<int>>, done: set<string>, k: string)
    requires done <= reg.Keys && k in reg && k !in done
    requires forall j :: j in done ==> EntryOk(j, reg[j])
    requires EntryOk(k, reg[k])
    ensures StoredFrom(reg, done + {k}) == StoredFrom(reg, done)[k[1..] := Pad(reg[k])]
  {
    var after := StoredFrom(reg, done + {k});
    var expected := StoredFrom(reg, done)[k[1..] := Pad(reg[k])];
    forall name ensures (name in after <==> name in expected) && (name in expected ==> after[name] == expected[name]) {
      StoredFromAddAt(reg, done, k, name);
    }
  }

  /**
   The validation pass. The registry is walked in whatever order the
   choice below makes, standing for Python's dict order: success, and on
   success the resulting map, are the same for every order.
   */
  method ValidateRegistry(reg: map<string, seq<int>>) returns (r: Result<map<string, CodepointPair>, EntityError>)
    ensures r.Success? <==> ValidRegistry(reg)
    ensures r.Failure? ==> exists k :: k in reg && ValidateEntry(k, reg[k]) == Failure(r.error)
    ensures r.Success? ==> r.value == Stored(reg)
  {
    var entities := map[[] := Unused];
    var done: set<string> := {};
    while done != reg.Keys
      invariant done <= reg.Keys
      invariant forall k :: k in done ==> EntryOk(k, reg[k])
      invariant entities == StoredFrom(reg, done)
      decreases |reg.Keys - done|
    {
      var k :| k in reg.Keys - done;
      match ValidateEntry(k, reg[k]) {
        case Failure(e) =>
          return Failure(e);
        case Success(entry) =>
          StoredFromAdd(reg, done, k);
          entities := entities[entry.0 := entry.1];
      }
      done := done + {k};
    }
    return Success(entities);
  }

  /** The proper non-empty prefixes of the given names. */
  ghost function Prefixes(names: set<string>): set<string> {
    set k, n | k in names && 1 <= n < |k| :: k[..n]
  }

  ghost predicate PrefixClosed(names: set<string>) {
    forall k, n :: k in names && 1 <= n < |k| ==> k[..n] in names
  }

  /** `m` with every name of `extra` it lacks added as `Unused`. */
  ghost function Fill(m: map<string, CodepointPair>, extra: set<string>): map<string, CodepointPair> {
    map k | k in m.Keys + extra :: if k in m then m[k] else Unused
  }

  /** Reference meaning of the closure: the names of `m` and all their proper non-empty prefixes. */
  ghost function Closure(m: map<string, CodepointPair>): map<string, CodepointPair> {
    Fill(m, Prefixes(m.Keys))
  }

  /** `setdefault(x, Unused)` on a filled map fills one more name. */
  lemma FillSetDefault(m: map<string, CodepointPair>, extra: set<string>, x: string)
    ensures x in Fill(m, extra) ==> Fill(m, extra + {x}) == Fill(m, extra)
    ensures x !in Fill(m, extra) ==> Fill(m, extra + {x}) == Fill(m, extra)[x := Unused]
  {
  }

  /** The proper prefixes of `k` shorter than `n`. */
  ghost function PrefixesBelow(k: string, n: nat): set<string> {
    set i | 1 <= i < n && i < |k| :: k[..i]
  }

  lemma PrefixesBelowStep(k: string, n: nat)
    requires 1 <= n < |k|
    ensures PrefixesBelow(k, n + 1) == PrefixesBelow(k, n) + {k[..n]}
  {
    forall x | x in PrefixesBelow(k, n + 1) ensures x in PrefixesBelow(k, n) + {k[..n]} {
      var i :| 1 <= i < n + 1 && i < |k| && x == k[..i];
      if i < n {
        assert x in PrefixesBelow(k, n);
      }
    }
  }

  lemma PrefixesAdd(done: set<string>, k: string)
    ensures Prefixes(done + {k}) == Prefixes(done) + PrefixesBelow(k, |k|)
  {
    forall x | x in Prefixes(done + {k}) ensures x in Prefixes(done) + PrefixesBelow(k, |k|) {
      var j, n :| j in done + {k} && 1 <= n < |j| && x == j[..n];
      if j != k {
        assert x in Prefixes(done);
      }
    }
    forall x | x in PrefixesBelow(k, |k|) ensures x in Prefixes(done + {k}) {
      var i :| 1 <= i < |k| && x == k[..i];
    }
  }

  /**
   The inner loop for one name `k`: `setdefault(k[..n], Unused)` for each
   `n` in `1..|k| - 1`, on a map that is `m` filled with `extra`.
   */
  method SetDefaultPrefixes(m: map<string, CodepointPair>, ghost extra: set<string>, r0: map<string, CodepointPair>, k: string)
    returns (r: map<string, CodepointPair>)
    requires r0 == Fill(m, extra)
    ensures r == Fill(m, extra + PrefixesBelow(k, |k|))
  {
    r := r0;
    var n := 1;
    assert PrefixesBelow(k, 1) == {};
    assert extra + PrefixesBelow(k, 1) == extra;
    while n < |k|
      invariant 1 <= n
      invariant |k| >= 1 ==> n <= |k|
      invariant r == Fill(m, extra + PrefixesBelow(k, n))
    {
      PrefixesBelowStep(k, n);
      assert extra + PrefixesBelow(k, n + 1) == (extra + PrefixesBelow(k, n)) + {k[..n]};
      FillSetDefault(m, extra + PrefixesBelow(k, n), k[..n]);
      if k[..n] !in r {
        r := r[k[..n] := Unused];
      }
      n := n + 1;
    }
    if |k| >= 1 {
      assert n == |k|;
    } else {
      assert PrefixesBelow(k, |k|) == {} == PrefixesBelow(k, n);
    }
  }

  /**
   The closure loop: for each name of a snapshot of the keys, the inner
   loop over its proper non-empty prefixes.
   */
  method ClosePrefixes(m: map<string, CodepointPair>) returns (r: map<string, CodepointPair>)
    ensures forall k :: k in m ==> k in r && r[k] == m[k]
    ensures forall k :: k in r && k !in m ==> r[k] == Unused && k in Prefixes(m.Keys)
    ensures PrefixClosed(r.Keys)
    ensures r == Closure(m)
  {
    var snapshot := m.Keys;
    var done: set<string> := {};
    assert Prefixes({}) == {};
    assert m == Fill(m, {});
    r := m;
    while done != snapshot
      invariant done <= snapshot
      invariant r == Fill(m, Prefixes(done))
      decreases |snapshot - done|
    {
      var k :| k in snapshot - done;
      r := SetDefaultPrefixes(m, Prefixes(done), r, k);
      PrefixesAdd(done, k);
      done := done + {k};
    }
    ClosurePrefixClosed(m);
  }

  /**
   Closing over the snapshot alone is enough: a prefix of a prefix of a
   name is a prefix of that name.
   */
  lemma ClosurePrefixClosed(m: map<string, CodepointPair>)
    ensures PrefixClosed(Closure(m).Keys)
  {
    forall x, n | x in Closure(m).Keys && 1 <= n < |x| ensures x[..n] in Closure(m).Keys {
      if x !in m {
        var k, i :| k in m.Keys && 1 <= i < |k| && x == k[..i];
        assert x[..n] == k[..n];
      }
    }
  }

  /** The closure is the least prefix-closed set of names containing those of `m`. */
  lemma ClosureLeast(m: map<string, CodepointPair>, names: set<string>)
    requires m.Keys <= names && PrefixClosed(names)
    ensures Closure(m).Keys <= names
  {
  }

  /** The table and the order `sorted` lists its names in. */
  datatype EntityOutput = EntityOutput(table: map<string, CodepointPair>, order: seq<string>)

  /** The table `print_entities` emits for a valid registry. */
  ghost function EntityMap(reg: map<string, seq<int>>): map<string, CodepointPair>
    requires ValidRegistry(reg)
  {
    Closure(Stored(reg))
  }

  /**
   `print_entities` without the printing: validate and store, close over
   prefixes, and list the names in sorted order.
   */
  method BuildEntityTable(reg: map<string, seq<int>>) returns (r: Result<EntityOutput, EntityError>)
    ensures r.Success? <==> ValidRegistry(reg)
    ensures r.Failure? ==> exists k :: k in reg && ValidateEntry(k, reg[k]) == Failure(r.error)
    ensures r.Success? ==> r.value.table == EntityMap(reg)
    ensures r.Success? ==> StrictlyAscending(r.value.order)
    ensures r.Success? ==> forall name :: name in r.value.order <==> name in r.value.table
  {
    var stored := ValidateRegistry(reg);
    match stored {
      case Failure(e) =>
        return Failure(e);
      case Success(entities) =>
        var table := ClosePrefixes(entities);
        var order := SortKeys(table.Keys);
        return Success(EntityOutput(table, order));
    }
  }

  /** Every registry entry `&name` is in the table under `name` with its own codepoints. */
  lemma RegistryEntryKept(reg: map<string, seq<int>>, key: string)
    requires ValidRegistry(reg) && key in reg
    ensures key[1..] in EntityMap(reg)
    ensures Unpad(EntityMap(reg)[key[1..]]) == reg[key]
    ensures EntityMap(reg)[key[1..]].0 != 0
  {
    assert key == [Marker] + key[1..];
    StoredFromAt(reg, reg.Keys, key[1..]);
    PadRoundTrip(reg[key]);
  }

  /**
   A name of the table has a non-zero first slot exactly when the registry
   has the key `&name`; every other name is an added prefix or the seed,
   with both slots unused.
   */
  lemma NamedIffFirstSlotSet(reg: map<string, seq<int>>, name: string)
    requires ValidRegistry(reg) && name in EntityMap(reg)
    ensures EntityMap(reg)[name].0 != 0 <==> [Marker] + name in reg
    ensures [Marker] + name !in reg ==> EntityMap(reg)[name] == Unused
  {
    var key := [Marker] + name;
    assert key[1..] == name;
    assert name == [] ==> key == [Marker];
    StoredFromAt(reg, reg.Keys, name);
    if key in reg {
      RegistryEntryKept(reg, key);
    }
  }

  /**
   The seeded empty name is always in the table, and stays unused unless
   the registry has the bare key `&`.
   */
  lemma EmptyNameSeeded(reg: map<string, seq<int>>)
    requires ValidRegistry(reg)
    ensures [] in EntityMap(reg)
    ensures [Marker] !in reg ==> EntityMap(reg)[[]] == Unused
    ensures [Marker] in reg ==> Unpad(EntityMap(reg)[[]]) == reg[[Marker]]
  {
    StoredFromAt(reg, reg.Keys, []);
    assert [Marker] + [] == [Marker];
    if [Marker] in reg {
      RegistryEntryKept(reg, [Marker]);
      assert [Marker][1..] == [];
    }
  }

  /** The names of the table are prefix-closed, whatever the registry. */
  lemma EntityMapPrefixClosed(reg: map<string, seq<int>>)
    requires ValidRegistry(reg)
    ensures PrefixClosed(EntityMap(reg).Keys)
  {
    ClosurePrefixClosed(Stored(reg));
  }
}

/**
 A two-entry registry worked through by hand: `&amp;` and its legacy form
 `&amp` without the semicolon.
 */
module EntityExample {
  import opened Wrappers
  import opened LexOrder
  import opened EntityTable

  const AmpRegistry: map<string, seq<int>> := map["&amp;" := [38], "&amp" := [38]]

  const AmpTable: map<string, CodepointPair> :=
    map["" := Unused, "a" := Unused, "am" := Unused, "amp" := (38, 0), "amp;" := (38, 0)]

  const AmpOrder: seq<string> := ["", "a", "am", "amp", "amp;"]

  /** A registry with exactly the two entries of the example. */
  predicate IsAmpRegistry(reg: map<string, seq<int>>) {
    reg.Keys == {"&amp;", "&amp"} && reg["&amp;"] == [38] && reg["&amp"] == [38]
  }

  /** Both entries of the example are valid. */
  lemma AmpValid(reg: map<string, seq<int>>)
    requires IsAmpRegistry(reg)
    ensures ValidRegistry(reg)
  {
    assert EntryOk("&amp;", [38]) && EntryOk("&amp", [38]);
  }

  /** A stored name of the example is the seed or one of the two keys without `&`. */
  lemma AmpStoredName(reg: map<string, seq<int>>, name: string)
    requires IsAmpRegistry(reg) && ValidRegistry(reg)
    ensures name in Stored(reg) <==> name == "" || name == "amp" || name == "amp;"
  {
    StoredFromAt(reg, reg.Keys, name);
    var key := [Marker] + name;
    assert key[1..] == name;
    if name == "amp" {
      assert key == "&amp";
    } else if name == "amp;" {
      assert key == "&amp;";
    } else {
      assert key != "&amp;" && key != "&amp";
    }
  }

  /** The stored names of the example are the seed and the two keys without `&`. */
  lemma AmpStoredKeys(reg: map<string, seq<int>>)
    requires IsAmpRegistry(reg)
    ensures ValidRegistry(reg)
    ensures Stored(reg).Keys == {"", "amp", "amp;"}
  {
    AmpValid(reg);
    forall name ensures name in Stored(reg) <==> name in {"", "amp", "amp;"} {
      AmpStoredName(reg, name);
    }
  }

  lemma AmpStoredOf(reg: map<string, seq<int>>)
    requires IsAmpRegistry(reg)
    ensures ValidRegistry(reg)
    ensures Stored(reg) == map["" := Unused, "amp" := (38, 0), "amp;" := (38, 0)]
  {
    AmpStoredKeys(reg);
    assert "&amp;" == [Marker] + "amp;" && "&amp" == [Marker] + "amp" && [Marker] + "" == "&";
    StoredFromAt(reg, reg.Keys, "");
    StoredFromAt(reg, reg.Keys, "amp");
    StoredFromAt(reg, reg.Keys, "amp;");
  }

  lemma AmpStored()
    ensures ValidRegistry(AmpRegistry)
    ensures Stored(AmpRegistry) == map["" := Unused, "amp" := (38, 0), "amp;" := (38, 0)]
  {
    assert IsAmpRegistry(AmpRegistry);
    AmpStoredOf(AmpRegistry);
  }

  /** The names `amp;`, `amp` and the seed have exactly `a`, `am` and `amp` as proper prefixes. */
  lemma AmpPrefixes(names: set<string>)
    requires names == {"", "amp", "amp;"}
    ensures Prefixes(names) == {"a", "am", "amp"}
  {
    forall x | x in Prefixes(names) ensures x in {"a", "am", "amp"} {
      var k, n :| k in names && 1 <= n < |k| && x == k[..n];
      assert k == "amp" || k == "amp;";
      if n == 1 {
        assert k[..1] == "a";
      } else if n == 2 {
        assert k[..2] == "am";
      } else {
        assert k == "amp;" && k[..3] == "amp";
      }
    }
    assert "amp;"[..1] == "a" && "amp;"[..2] == "am" && "amp;"[..3] == "amp";
  }

  lemma AmpClosureOf(m: map<string, CodepointPair>)
    requires m.Keys == {"", "amp", "amp;"}
    requires m[""] == Unused && m["amp"] == (38, 0) && m["amp;"] == (38, 0)
    ensures Closure(m) == AmpTable
  {
    AmpPrefixes(m.Keys);
    var c := Closure(m);
    assert c.Keys == {"", "a", "am", "amp", "amp;"};
  }

  lemma AmpTableOf(reg: map<string, seq<int>>)
    requires IsAmpRegistry(reg)
    ensures ValidRegistry(reg)
    ensures EntityMap(reg) == AmpTable
  {
    AmpStoredOf(reg);
    AmpClosureOf(Stored(reg));
  }

  /**
   The example registry builds the table with the seed, the two entries
   (first slot U+0026, second unused) and the added prefixes `a` and `am`.
   */
  lemma AmpTableBuilt()
    ensures ValidRegistry(AmpRegistry)
    ensures EntityMap(AmpRegistry) == AmpTable
  {
    assert IsAmpRegistry(AmpRegistry);
    AmpTableOf(AmpRegistry);
  }

  /** Each name of the example order is a proper prefix of the next, so the order ascends. */
  lemma AmpOrderAscending()
    ensures StrictlyAscending(AmpOrder)
    ensures forall name :: name in AmpOrder <==> name in AmpTable
  {
    var o := AmpOrder;
    assert Less(o[0], o[1]);
    assert Less(o[1], o[2]) by { assert Less(o[1][1..], o[2][1..]); }
    assert Less(o[2], o[3]) by { assert Less(o[2][2..], o[3][2..]); }
    assert Less(o[3], o[4]) by { assert Less(o[3][3..], o[4][3..]); }
    forall i, j | 0 <= i < j < |o| ensures Less(o[i], o[j]) {
      if j > i + 1 {
        if j > i + 2 {
          if j > i + 3 {
            LessTransitive(o[i], o[i + 1], o[i + 2]);
            LessTransitive(o[i], o[i + 2], o[i + 3]);
            LessTransitive(o[i], o[i + 3], o[j]);
          } else {
            LessTransitive(o[i], o[i + 1], o[i + 2]);
            LessTransitive(o[i], o[i + 2], o[j]);
          }
        } else {
          LessTransitive(o[i], o[i + 1], o[j]);
        }
      }
    }
  }

  /** Any strictly ascending listing of the example table's names is the emitted order. */
  lemma AmpOrderSorted(s: seq<string>)
    requires ValidRegistry(AmpRegistry)
    requires StrictlyAscending(s)
    requires forall name :: name in s <==> name in EntityMap(AmpRegistry)
    ensures s == AmpOrder
  {
    AmpTableBuilt();
    AmpOrderAscending();
    SortedUnique(s, AmpOrder);
  }

  /** The whole build on the example registry: the table above and the names in sorted order. */
  method AmpBuild() returns (r: Result<EntityOutput, EntityError>)
    ensures r == Success(EntityOutput(AmpTable, AmpOrder))
  {
    AmpTableBuilt();
    r := BuildEntityTable(AmpRegistry);
    AmpOrderSorted(r.value.order);
  }
}

=== FILE: hex.dfy ===
/**
 Hexadecimal digit strings: the parse that `int(s, 16)` performs on the
 digits of a table token, and the lower-case rendering that `%x` produces.
 */
module Hex {
  import opened Wrappers

  predicate IsHexDigit(c: char) {
    ('0' <= c <= '9') || ('a' <= c <= 'f') || ('A' <= c <= 'F')
  }

  predicate IsLowerHexDigit(c: char) {
    ('0' <= c <= '9') || ('a' <= c <= 'f')
  }

  predicate AllHex(s: string) {
    forall i :: 0 <= i < |s| ==> IsHexDigit(s[i])
  }

  predicate AllLowerHex(s: string) {
    forall i :: 0 <= i < |s| ==> IsLowerHexDigit(s[i])
  }

  function DigitValue(c: char): (v: nat)
    requires IsHexDigit(c)
    ensures v < 16
  {
    if '0' <= c <= '9' then c as int - '0' as int
    else if 'a' <= c <= 'f' then c as int - 'a' as int + 10
    else c as int - 'A' as int + 10
  }

  /** The lower-case digit `%x` prints for a value below sixteen. */
  function LowerDigit(d: nat): (c: char)
    requires d < 16
    ensures IsLowerHexDigit(c) && IsHexDigit(c)
    ensures DigitValue(c) == d
  {
    if d < 10 then ('0' as int + d) as char else ('a' as int + d - 10) as char
  }

  function Pow16(n: nat): (p: nat)
    ensures p >= 1
  {
    if n == 0 then 1 else 16 * Pow16(n - 1)
  }

  /** The number a string of hex digits denotes, most significant digit first. */
  function Value(s: string): nat
    requires AllHex(s)
  {
    if |s| == 0 then 0 else 16 * Value(s[..|s| - 1]) + DigitValue(s[|s| - 1])
  }

  lemma {:induction false} ValueBound(s: string)
    requires AllHex(s)
    ensures Value(s) < Pow16(|s|)
  {
    if |s| > 0 {
      ValueBound(s[..|s| - 1]);
    }
  }

  /**
   Parses a token's digit part: `None` where Python's `int(s, 16)` raises,
   which for a string of hex digits only is exactly the empty string.
   */
  function Parse(s: string): (r: Option<nat>)
    ensures r.Some? <==> |s| > 0 && AllHex(s)
    ensures r.Some? ==> r.value < Pow16(|s|)
  {
    if |s| > 0 && AllHex(s) then ValueBound(s); Some(Value(s)) else None
  }

  /** The shortest lower-case digit string of `n`, as `%x` prints it. */
  function ToLowerHex(n: nat): (s: string)
    ensures |s| > 0 && AllLowerHex(s) && AllHex(s)
    ensures Value(s) == n
    ensures |s| > 1 ==> s[0] != '0'
    decreases n
  {
    if n < 16 then [LowerDigit(n)]
    else
      var hi := ToLowerHex(n / 16);
      var s := hi + [LowerDigit(n % 16)];
      assert s[..|s| - 1] == hi;
      s
  }

  function Zeros(k: nat): (z: string)
    ensures |z| == k
    ensures forall i :: 0 <= i < k ==> z[i] == '0'
  {
    if k == 0 then [] else Zeros(k - 1) + ['0']
  }

  /** `s` left-padded with `0` to at least `width` characters, as `%0Nx` does. */
  function PadLeft(s: string, width: nat): (p: string)
    ensures |p| == if |s| < width then width else |s|
    ensures p[|p| - |s|..] == s
    ensures forall i :: 0 <= i < |p| - |s| ==> p[i] == '0'
  {
    if |s| < width then Zeros(width - |s|) + s else s
  }

  /** Leading zeros do not change the number a digit string denotes. */
  lemma {:induction false} LeadingZerosValue(s: string, k: nat)
    requires AllHex(s)
    ensures AllHex(Zeros(k) + s)
    ensures Value(Zeros(k) + s) == Value(s)
    decreases |s|
  {
    var z := Zeros(k) + s;
    assert AllHex(z) by {
      forall i | 0 <= i < |z| ensures IsHexDigit(z[i]) {
        if i < k { assert z[i] == '0'; } else { assert z[i] == s[i - k]; }
      }
    }
    if |s| == 0 {
      assert z == Zeros(k);
      ZerosValue(k);
    } else {
      var t := s[..|s| - 1];
      assert z[..|z| - 1] == Zeros(k) + t;
      assert z[|z| - 1] == s[|s| - 1];
      LeadingZerosValue(t, k);
    }
  }

  lemma {:induction false} ZerosValue(k: nat)
    ensures AllHex(Zeros(k))
    ensures Value(Zeros(k)) == 0
  {
    var z := Zeros(k);
    assert AllHex(z) by {
      forall i | 0 <= i < k ensures IsHexDigit(z[i]) {
        assert z[i] == '0';
      }
    }
    if k > 0 {
      ZerosValue(k - 1);
      assert z[..k - 1] == Zeros(k - 1);
      assert DigitValue(z[k - 1]) == 0;
      assert Value(z) == 16 * Value(Zeros(k - 1)) + 0;
    }
  }

  /** Round trip: parsing a zero-padded rendering of `n` gives back `n`. */
  lemma PaddedRoundTrip(n: nat, width: nat)
    ensures Parse(PadLeft(ToLowerHex(n), width)) == Some(n)
  {
    var s := ToLowerHex(n);
    if |s| < width {
      LeadingZerosValue(s, width - |s|);
    }
  }

  /** The lower-case spelling of a digit; any other character is kept. */
  function LowerCase(c: char): (d: char)
    ensures IsHexDigit(c) ==> IsLowerHexDigit(d) && IsHexDigit(d) && DigitValue(d) == DigitValue(c)
    ensures !('A' <= c <= 'F') ==> d == c
  {
    if 'A' <= c <= 'F' then (c as int - 'A' as int + 'a' as int) as char else c
  }

  function LowerAll(s: string): (t: string)
    ensures |t| == |s| && forall i :: 0 <= i < |s| ==> t[i] == LowerCase(s[i])
  {
    seq(|s|, i requires 0 <= i < |s| => LowerCase(s[i]))
  }

  /**
   Case does not matter to `int(s, 16)`: a token with upper-case digits
   parses to what its lower-case spelling does, which `PaddedRoundTrip`
   pins down.
   */
  lemma {:induction false} ParseIgnoresCase(s: string)
    requires AllHex(s)
    ensures AllLowerHex(LowerAll(s)) && AllHex(LowerAll(s))
    ensures Parse(s) == Parse(LowerAll(s))
  {
    ValueIgnoresCase(s);
  }

  lemma {:induction false} ValueIgnoresCase(s: string)
    requires AllHex(s)
    ensures AllHex(LowerAll(s)) && Value(s) == Value(LowerAll(s))
    decreases |s|
  {
    var t := LowerAll(s);
    if |s| > 0 {
      var p := s[..|s| - 1];
      assert t[..|t| - 1] == LowerAll(p);
      ValueIgnoresCase(p);
    }
  }

  /** A single digit parses to its own value. */
  lemma ParseOneDigit(c: char)
    requires IsHexDigit(c)
    ensures Parse([c]) == Some(DigitValue(c))
  {
    assert [c][..0] == [];
  }

  /**
   One more digit multiplies the value so far by sixteen and adds the
   digit's value; with `ParseOneDigit` this fixes the value of every token.
   */
  lemma ParseAppendDigit(s: string, c: char)
    requires |s| > 0 && AllHex(s) && IsHexDigit(c)
    ensures Parse(s + [c]) == Some(16 * Parse(s).value + DigitValue(c))
  {
    assert (s + [c])[..|s|] == s;
  }

  /** The value of a two-digit token, digit by digit. */
  lemma ParseTwoDigits(s: string)
    requires |s| == 2 && IsHexDigit(s[0]) && IsHexDigit(s[1])
    ensures Parse(s) == Some(16 * DigitValue(s[0]) + DigitValue(s[1]))
  {
    assert AllHex(s);
    assert Value(s[..1]) == DigitValue(s[0]) by {
      assert s[..1][..0] == [] && s[..1][0] == s[0];
    }
  }

  /** The value of a four-digit token, digit by digit. */
  lemma ParseFourDigits(s: string)
    requires |s| == 4 && IsHexDigit(s[0]) && IsHexDigit(s[1]) && IsHexDigit(s[2]) && IsHexDigit(s[3])
    ensures Parse(s) == Some(4096 * DigitValue(s[0]) + 256 * DigitValue(s[1])
                             + 16 * DigitValue(s[2]) + DigitValue(s[3]))
  {
    assert AllHex(s);
    assert Value(s[..1]) == DigitValue(s[0]) by {
      assert s[..1][..0] == [] && s[..1][0] == s[0];
    }
    assert Value(s[..2]) == 16 * DigitValue(s[0]) + DigitValue(s[1]) by {
      assert s[..2][..1] == s[..1] && s[..2][1] == s[1];
    }
    assert Value(s[..3]) == 256 * DigitValue(s[0]) + 16 * DigitValue(s[1]) + DigitValue(s[2]) by {
      assert s[..3][..2] == s[..2] && s[..3][2] == s[2];
    }
  }
}

=== FILE: lex_order.dfy ===
/**
 The order `sorted` puts entity names in: strings compared character by
 character, with a proper prefix before every longer string it starts.
 */
module LexOrder {

  /** `a` sorts strictly before `b`. */
  predicate Less(a: string, b: string)
    decreases |a|
  {
    if |b| == 0 then false
    else if |a| == 0 then true
    else if a[0] != b[0] then a[0] < b[0]
    else Less(a[1..], b[1..])
  }

  predicate IsProperPrefix(a: string, b: string) {
    |a| < |b| && b[..|a|] == a
  }

  /** `a` and `b` agree before position `i` and `a` has the smaller character there. */
  predicate DiffersLowerAt(a: string, b: string, i: nat) {
    i < |a| && i < |b| && a[..i] == b[..i] && a[i] < b[i]
  }

  /** The textbook definition of the lexicographic order. */
  predicate LessRef(a: string, b: string) {
    IsProperPrefix(a, b) || exists i: nat | i < |a| :: DiffersLowerAt(a, b, i)
  }

  /** Shifting a first difference past a shared first character. */
  lemma DiffersLowerShift(a: string, b: string, i: nat)
    requires |a| > 0 && |b| > 0 && a[0] == b[0]
    ensures DiffersLowerAt(a, b, i + 1) <==> DiffersLowerAt(a[1..], b[1..], i)
  {
    if DiffersLowerAt(a, b, i + 1) {
      assert a[1..][..i] == a[..i + 1][1..];
      assert b[1..][..i] == b[..i + 1][1..];
    }
    if DiffersLowerAt(a[1..], b[1..], i) {
      assert a[..i + 1] == [a[0]] + a[1..][..i];
      assert b[..i + 1] == [b[0]] + b[1..][..i];
    }
  }

  /** The recursive order is the lexicographic order. */
  lemma {:induction false} LessMeaning(a: string, b: string)
    ensures Less(a, b) <==> LessRef(a, b)
    decreases |a|
  {
    if |b| == 0 {
    } else if |a| == 0 {
      assert IsProperPrefix(a, b);
    } else if a[0] != b[0] {
      if a[0] < b[0] {
        assert DiffersLowerAt(a, b, 0);
      } else {
        forall i: nat | 0 < i <= |a| && i <= |b| ensures a[..i] != b[..i] {
          assert a[..i][0] != b[..i][0];
        }
      }
    } else {
      LessMeaning(a[1..], b[1..]);
      if IsProperPrefix(a[1..], b[1..]) {
        assert b[..|a|] == [b[0]] + b[1..][..|a| - 1];
      }
      if IsProperPrefix(a, b) {
        assert b[1..][..|a| - 1] == b[..|a|][1..];
      }
      if i: nat :| DiffersLowerAt(a[1..], b[1..], i) {
        DiffersLowerShift(a, b, i);
      }
      if i: nat :| DiffersLowerAt(a, b, i) {
        if i == 0 {
          assert false;
        } else {
          DiffersLowerShift(a, b, i - 1);
        }
      }
    }
  }

  lemma {:induction false} LessIrreflexive(a: string)
    ensures !Less(a, a)
    decreases |a|
  {
    if |a| > 0 {
      LessIrreflexive(a[1..]);
    }
  }

  lemma {:induction false} LessTransitive(a: string, b: string, c: string)
    requires Less(a, b) && Less(b, c)
    ensures Less(a, c)
    decreases |a|
  {
    if |a| > 0 && a[0] == b[0] && b[0] == c[0] {
      LessTransitive(a[1..], b[1..], c[1..]);
    }
  }

  /** Any two distinct strings are ordered one way. */
  lemma {:induction false} LessTotal(a: string, b: string)
    requires a != b
    ensures Less(a, b) || Less(b, a)
    decreases |a|
  {
    if |a| > 0 && |b| > 0 && a[0] == b[0] {
      assert a == [a[0]] + a[1..] && b == [b[0]] + b[1..];
      LessTotal(a[1..], b[1..]);
    }
  }

  lemma LessAsymmetric(a: string, b: string)
    requires Less(a, b)
    ensures !Less(b, a)
  {
    if Less(b, a) {
      LessTransitive(a, b, a);
      LessIrreflexive(a);
    }
  }

  predicate StrictlyAscending(s: seq<string>) {
    forall i, j :: 0 <= i < j < |s| ==> Less(s[i], s[j])
  }

  /** `m` belongs to `keys` and sorts before every other member. */
  predicate IsLeast(m: string, keys: set<string>) {
    m in keys && forall x :: x in keys && x != m ==> Less(m, x)
  }

  /** Every non-empty finite set of strings has a least member. */
  lemma {:induction false} LeastExists(keys: set<string>)
    requires keys != {}
    ensures exists m :: IsLeast(m, keys)
    decreases |keys|
  {
    var y :| y in keys;
    var rest := keys - {y};
    if rest == {} {
      assert keys == {y};
      assert IsLeast(y, keys);
    } else {
      LeastExists(rest);
      var m :| IsLeast(m, rest);
      if Less(m, y) {
        assert IsLeast(m, keys);
      } else {
        LessTotal(m, y);
        forall x | x in keys && x != y ensures Less(y, x) {
          if x != m {
            LessTransitive(y, m, x);
          }
        }
        assert IsLeast(y, keys);
      }
    }
  }

  /**
   `sorted(keys)`: the keys in strictly ascending order, each exactly once.
   */
  method SortKeys(keys: set<string>) returns (s: seq<string>)
    ensures StrictlyAscending(s)
    ensures forall k :: k in keys <==> k in s
    ensures |s| == |keys|
  {
    s := [];
    var rest := keys;
    while rest != {}
      invariant rest <= keys
      invariant forall k :: k in keys <==> (k in s || k in rest)
      invariant forall k :: k in s ==> k !in rest
      invariant |s| + |rest| == |keys|
      invariant StrictlyAscending(s)
      invariant forall i, x :: 0 <= i < |s| && x in rest ==> Less(s[i], x)
      decreases |rest|
    {
      LeastExists(rest);
      var m :| IsLeast(m, rest);
      s := s + [m];
      rest := rest - {m};
    }
  }

  /**
   Two strictly ascending sequences with the same members are equal: the
   sorted order of a key set does not depend on how the set was listed.
   */
  lemma {:induction false} SortedUnique(s1: seq<string>, s2: seq<string>)
    requires StrictlyAscending(s1) && StrictlyAscending(s2)
    requires forall k :: k in s1 <==> k in s2
    ensures s1 == s2
    decreases |s1|
  {
    if |s1| > 0 {
      assert s1[0] in s1;
    }
    if |s2| > 0 {
      assert s2[0] in s2;
    }
    if |s1| > 0 {
      assert s2[0] in s1;
      if s1[0] != s2[0] {
        var i :| 0 <= i < |s1| && s1[i] == s2[0];
        var j :| 0 <= j < |s2| && s2[j] == s1[0];
        assert i > 0 && j > 0;
        LessAsymmetric(s1[0], s1[i]);
      }
      forall k ensures k in s1[1..] <==> k in s2[1..] {
        if k in s1[1..] {
          var i :| 1 <= i < |s1| && s1[i] == k;
          LessIrreflexive(s1[0]);
          assert k != s1[0];
          assert k in s1 && k in s2;
          var j :| 0 <= j < |s2| && s2[j] == k;
          assert j != 0;
          assert s2[1..][j - 1] == k;
        }
        if k in s2[1..] {
          var j :| 1 <= j < |s2| && s2[j] == k;
          LessIrreflexive(s2[0]);
          assert k != s2[0];
          assert k in s2 && k in s1;
          var i :| 0 <= i < |s1| && s1[i] == k;
          assert i != 0;
          assert s1[1..][i - 1] == k;
        }
      }
      SortedUnique(s1[1..], s2[1..]);
      assert s1 == [s1[0]] + s1[1..] && s2 == [s2[0]] + s2[1..];
    }
  }
}

=== FILE: wrappers.dfy ===
/** Failure-carrying datatypes shared by both table builders. */
module Wrappers {

  /** A value that may be absent: a C1 slot with no remapping is `None`. */
  datatype Option<+T> = None | Some(value: T)

  /** The outcome of a build step: a value, or the error that aborts the build. */
  datatype Result<+R, +E> = Success(value: R) | Failure(error: E)
}
